=== FILE: README.md ===
# Hostel rooms and income: a Dafny model

This project models the core of a hostel-management back end, written in
TypeScript on Express and knex over SQLite, and proves properties of that model.
It covers five parts:

- **Bearer-token middleware and administrator gate** (`dist/middleware/auth.js`).
  The JWT library's verifier is a parameter.
- **Room controller** (`src/controllers/roomController.ts`):
  - the capacity classifier `getCapacityFromRoomTypeName`, with its keyword
    table and its `(\d+)\s*(person|bed)` search through the description;
  - the two capacity chains: the list view and the detail view;
  - available beds;
  - the amenities column;
  - the role-scoped listing;
  - the gates of create, update and delete, and what each writes to the
    `rooms` table.
- **Repair script** `fix_room_capacities.ts`: its older capacity heuristic and
  the loop that fills in missing capacities. Lemmas state where it agrees with
  the controller's classifier.
- **Income controller** (`src/controllers/incomeController.ts`):
  - scoping by role and the date filter;
  - create, update and delete, with their gates;
  - the per-source summary (`GROUP BY source` with `SUM` and `COUNT`);
  - the analytics report: income rows and fee payments merged, stably sorted
    newest first, cut to 50 entries, and bucketed into four seven-day blocks
    for a month.
- **SQLite and JavaScript semantics** these handlers rely on (`Js`, `Sql`):
  - JavaScript truthiness of request-body fields, with `undefined`, `null` and
    a value kept apart;
  - `parseInt` (section 19.2.5 of ECMA-262) and `String(n)`;
  - `split(',')` with `trim()`, and `JSON.stringify` of a string array;
  - BINARY-collation text comparison behind `whereBetween` on `YYYY-MM-DD` dates;
  - the `max + 1` key SQLite gives an inserted row.

Tables are sequences of rows. Each handler is a pure function. It takes the
tables, the authenticated user (`req.user`, `None` when absent) and the request
fields. It returns the HTTP reply, and the table contents after any write, as
an `Effect`. A field missing from a JSON body is distinguished from an explicit
`null` (`Field`), because knex drops `undefined` properties from an update but
writes `null` ones.

Modules:

- `Wrappers`: `Option`.
- `Js`: JavaScript operators.
- `Sql`: text order and keys.
- `Http`: token payload and replies.
- `Auth`: the middleware.
- `RoomTables`: room, room-type and student rows.
- `RoomCapacity`: the classifier.
- `FixRoomCapacities`: the repair script.
- `Rooms`: the room handlers.
- `Incomes`: the income handlers and summary.
- `IncomeAnalytics`: the analytics report.

## Model

| member | source | states |
|---|---|---|
| Auth.BearerToken | dist/middleware/auth.js:5-11 | A token is extracted exactly when the header starts with "Bearer ", and the header is "Bearer " followed by that token |
| Auth.Authenticate | dist/middleware/auth.js:5-21 | A missing or non-bearer header gets 401 "Access token is required". A token the verifier rejects gets 401 "Invalid or expired token". Otherwise the request passes with the verifier's payload as the user |
| Auth.BearerTokenRoundTrip | dist/middleware/auth.js:11 | Any header "Bearer t" hands exactly t to the verifier |
| Auth.VerifierNotConsultedWithoutBearer | dist/middleware/auth.js:5-10 | Without a bearer header, the outcome is the same whatever the verifier would say |
| Auth.AuthenticatePassesIff | dist/middleware/auth.js:11-14 | A request passes if and only if its header is "Bearer t" for a t the verifier accepts |
| Auth.RequireAdmin | dist/middleware/auth.js:23-31 | Only role 1 passes, with the same user. A missing user or any other role gets 403 "Admin access required" |
| Js.ParseIntOfIntToString | src/controllers/incomeController.ts:93 | parseInt reads back every integer written as a decimal numeral, which is how String(n) writes every integer below 10^21 in magnitude |
| Js.ParseIntOfNonNumeral | src/controllers/incomeController.ts:93 | parseInt gives NaN on a string that starts with anything but white space, a sign or a digit, such as "undefined" or "null" |
| Js.ParseInt | src/controllers/incomeController.ts:93 | No contract of its own: the definition of `parseInt` without a radix. Its properties are stated by Js.ParseIntOfIntToString and Js.ParseIntOfNonNumeral |
| Js.JsonStringify | src/controllers/roomController.ts:299 | `JSON.stringify` writes null as "null" and nothing else as "null", and writes a list as a bracketed array text. That the text reads back as the same list is stated by Rooms.CreatedRoomReadsBack |
| Js.SplitJoin | src/controllers/roomController.ts:77 | Splitting on commas undoes joining comma-free pieces with commas |
| Sql.TextLeTransitive | src/controllers/incomeController.ts:39-41 | The text order used for date ranges is transitive |
| Sql.TextLeAntisymmetric | src/controllers/incomeController.ts:39-41 | Two texts each at most the other are equal |
| Sql.TextLeTotal | src/controllers/incomeController.ts:39-41 | Any two texts are comparable |
| Sql.Between | src/controllers/incomeController.ts:40 | No contract of its own: the definition of `BETWEEN` on text, where a NULL cell is never in range. Its properties are stated by Sql.EmptyRange and Sql.SingleDayRange |
| Sql.EmptyRange | src/controllers/incomeController.ts:39-41 | A range whose start sorts after its end holds no cell |
| Sql.SingleDayRange | src/controllers/incomeController.ts:294-296 | A range from a day to itself holds exactly the cells equal to that day, and never NULL |
| Sql.NextKey | src/controllers/roomController.ts:291 | An inserted row's key is at least 1 and larger than every key in use |
| RoomCapacity.FirstKeyword | src/controllers/roomController.ts:11-23 | The keyword table yields nothing exactly when no keyword occurs. Otherwise it yields the capacity of the first keyword in table order that occurs |
| RoomCapacity.NameCapacity | src/controllers/roomController.ts:7-23 | The name alone decides nothing exactly when it is not all digits and holds no keyword. An all-digit name gives its number |
| RoomCapacity.RegexMatchIsForced | src/controllers/roomController.ts:25-27 | Any match of `(\d+)\s*(person\|bed)` starting at a position takes the whole digit run and the whole white-space run after it, so a start position determines the match |
| RoomCapacity.MatchAtIffRegexMatch | src/controllers/roomController.ts:25-27 | The expression matches at a position exactly when the maximal digit run there, followed by the maximal white-space run, is followed by "person" or "bed" in any case |
| RoomCapacity.SearchFrom | src/controllers/roomController.ts:25-27 | The search finds nothing exactly when no position matches. Otherwise it returns the number captured by the leftmost match |
| RoomCapacity.CapacityFromRoomType | src/controllers/roomController.ts:6-30 | An all-digit name gives its number. Otherwise the first keyword found in the lower-cased name decides. A name that says nothing defers to the leftmost description match, and gives 0 when there is none |
| FixRoomCapacities.FirstNumber | fix_room_capacities.ts:21-24 | Yields nothing exactly when the name has no digit. Otherwise yields the value of the first run of digits |
| FixRoomCapacities.LegacyCapacity | fix_room_capacities.ts:11-24 | A name containing "double" gives 2. Every result is one of the words' capacities (2, 3, 4, 5, 6, 10), the default 1, or the first digit run of the name. The full order is stated by the three lemmas below |
| FixRoomCapacities.LegacyFirstWordDecides | fix_room_capacities.ts:11-20 | The first of the script's words, in its order, found in the lower-cased name decides the capacity |
| FixRoomCapacities.LegacyNumberFallback | fix_room_capacities.ts:21-24 | When none of the script's words occurs, the first digit run of the name gives the capacity |
| FixRoomCapacities.LegacyDefault | fix_room_capacities.ts:11 | A name with none of the words and no digit gets capacity 1 |
| FixRoomCapacities.ClassifiersAgreeOnDigitNames | fix_room_capacities.ts:11-24 | On an all-digit name the script and the controller's classifier give the same number |
| FixRoomCapacities.ClassifiersAgreeOnKeyword | fix_room_capacities.ts:12-20 | Suppose the controller's classifier settles on a keyword other than "single", and the name holds none of the script's words for another capacity. Then the script guesses the same capacity |
| FixRoomCapacities.ClassifiersDisagreeOnTent | fix_room_capacities.ts:20 | The two heuristics part on substrings. The script finds "ten" inside "Tent" and gives 10 beds. The controller's classifier finds no keyword and, with no description, gives 0 |
| FixRoomCapacities.SetCapacity | fix_room_capacities.ts:26 | The update rewrites the capacity of the rows with that id and leaves every other row as it was |
| FixRoomCapacities.NeedsCapacity | fix_room_capacities.ts:5 | No contract of its own: the script's filter, a capacity that is NULL or at most 0. Used by FixRoomCapacities.Repaired and FixRoomCapacities.Cleanup |
| FixRoomCapacities.Repaired | fix_room_capacities.ts:9-26 | Only the capacity may change. A room that needs a capacity and has a room type gets the script's guess for that type's name. Any other room is returned unchanged |
| FixRoomCapacities.Cleanup | fix_room_capacities.ts:5-26 | Each row changes at most in its capacity. Rows with a positive capacity, or with no room type, are untouched. Every row that needed a capacity and has a room type gets the script's guess for that type's name |
| Rooms.AvailableBeds | src/controllers/roomController.ts:104 | Available beds are never negative and at least capacity minus occupied. They are 0 exactly when the room is full or over-full, and otherwise add up with the occupied beds to the capacity |
| Rooms.ListCapacity | src/controllers/roomController.ts:97-101 | A positive stored capacity is used as is. Otherwise the room type's classification is used, and with no room type the room's room_type_id, or 0 when that is NULL |
| Rooms.DetailCapacity | src/controllers/roomController.ts:185-197 | The detail capacity is at least 1. It is the stored capacity when that is positive, read back through parseInt(String(c)). Otherwise it is the room type's capacity when that is positive |
| Rooms.CapacityViewsAgree | src/controllers/roomController.ts:97-101 | When there is a stored capacity or a room type, the detail view shows the list view's capacity, or 2 when that is not positive. With neither, the detail view shows 2 |
| Rooms.ListedOccupancy | src/controllers/roomController.ts:94 | The listing's occupancy is the number of active students in the room, or the stored occupied-beds count when there are none |
| Rooms.TrimmedItems | src/controllers/roomController.ts:77 | A text is an item exactly when it is non-empty and is some piece of the split, trimmed. There are never more items than pieces |
| Rooms.TrimEach | src/controllers/roomController.ts:77 | `.map(a => a.trim())` gives one item per piece, and item i is piece i trimmed |
| Rooms.NonEmpty | src/controllers/roomController.ts:77 | `.filter(Boolean)` keeps exactly the non-empty items |
| Rooms.AmenitiesOf | src/controllers/roomController.ts:69-79 | A NULL or empty cell gives no amenities. A cell that parses as JSON gives the parsed list. Any other cell gives exactly the non-empty trimmed comma-separated pieces |
| Rooms.CsvAmenitiesRoundTrip | src/controllers/roomController.ts:67-79 | A comma-joined list of non-empty, trimmed, comma-free amenities that is not JSON reads back as the same list |
| Rooms.ListView | src/controllers/roomController.ts:82-106 | A listed room carries the list capacity, the listing occupancy, available beds derived from the two, and its parsed amenities |
| Rooms.SelectRooms | src/controllers/roomController.ts:48-62 | A row is selected exactly when the user's role lets them see it |
| RoomTables.ActiveOccupants | src/controllers/roomController.ts:177-180 | The occupants are exactly the students of that room whose status is 1, and there are no more of them than students |
| RoomTables.FindRoomType | src/controllers/roomController.ts:288 | A room type is found exactly when the id is not NULL and some room type has it, and the one found has that id |
| Rooms.GetRooms | src/controllers/roomController.ts:48-62 | An owner without a hostel gets 403. Otherwise every view comes from a visible row, and every visible row has its view in the reply |
| Rooms.OwnerListingIgnoresOtherHostels | src/controllers/roomController.ts:55-60 | Adding rooms of other hostels does not change an owner's listing |
| Rooms.GetRoomById | src/controllers/roomController.ts:150-200 | An unknown id gets 404. Otherwise the reply holds that room, and its occupants are exactly the active students assigned to it. The occupied count is their number. The capacity is the detail chain's: stored, then the room type's, then 2. Available beds follow from those |
| Rooms.CreateTarget | src/controllers/roomController.ts:242-265 | An owner creates in their own hostel, or gets 403 when not linked. An administrator names a hostel, or gets 400. Any other role gets 403 |
| Rooms.HasRequiredFields | src/controllers/roomController.ts:268 | No contract of its own: room_number, room_type_id and rent_per_bed must all be truthy. Used by Rooms.CreateRoom, whose contract gives 400 when it fails |
| Rooms.NumberTaken | src/controllers/roomController.ts:276-280 | No contract of its own: some room of the hostel already has that number. Used by Rooms.CreateRoom, whose contract gives 409 when it holds |
| Rooms.TypeCapacity | src/controllers/roomController.ts:288-289 | An unknown or NULL room type gives 0. A found type gives its classification from name and description |
| Rooms.NextRoomId | src/controllers/roomController.ts:291 | A new room's id is not in use |
| Rooms.NewRoom | src/controllers/roomController.ts:286-302 | The inserted row holds the sent number, type, floor and rent. Its capacity is the room type's classification, or 0 with no such type. occupied_beds is 0 unless sent. Amenities are stored as JSON text when sent and as NULL otherwise. is_available is 1 |
| Rooms.CreateRoom | src/controllers/roomController.ts:240-302 | The gates come in order: role, then the required fields (400), then a duplicate room number in the hostel (409). Creation succeeds exactly when all three pass. Then exactly one row is appended: a fresh id in the target hostel, holding the sent number, type, floor and rent. Its capacity is the room type's classification, or 0 when the type is missing. occupied_beds is 0 unless sent, and is_available is 1. On failure nothing is written |
| Rooms.OwnerCreateIgnoresBodyHostel | src/controllers/roomController.ts:242-259 | For an owner, the hostel_id in the body changes nothing, and the new row belongs to the owner's hostel |
| Rooms.CreateRoomKeepsKeysUnique | src/controllers/roomController.ts:276-302 | Creation keeps room ids unique, and keeps room numbers unique within a hostel |
| Rooms.CreatedRoomReadsBack | src/controllers/roomController.ts:291-302 | A created room is found by its new id. Its detail view shows its room type's capacity, or 2 when that is 0 or the type is missing. Its amenities read back as sent, or as none when absent or null |
| Rooms.OwnershipError | src/controllers/roomController.ts:346-360 | An owner may touch a room only when they are linked and the room is in their hostel. Other roles pass |
| Rooms.Patched | src/controllers/roomController.ts:362-376 | A truthy room number, room type or rent replaces the column, and otherwise the column is kept. Floor, occupied beds, availability and amenities are written when not undefined, and otherwise kept. updated_at is stamped. Id, hostel, capacity and creation time never change |
| Rooms.PatchIdempotent | src/controllers/roomController.ts:362-376 | Applying the same patch twice at the same time is the same as applying it once |
| Rooms.EmptyPatchTouchesOnlyTimestamp | src/controllers/roomController.ts:362-376 | A body with no fields only sets updated_at |
| Rooms.UpdateRoom | src/controllers/roomController.ts:338-380 | An unknown id gets 404. An owner who does not own the room gets 403 with the ownership message. The update succeeds (200) exactly when neither applies. On success only the rows with that id are patched, and a refused update writes nothing |
| Rooms.UpdateRoomIdempotent | src/controllers/roomController.ts:362-376 | Repeating an update request at the same time leaves the table as the first one did |
| Rooms.PatchRows | src/controllers/roomController.ts:374-376 | The table keeps its length, every row with the id is patched, and every other row is kept |
| Rooms.RemoveRoom | src/controllers/roomController.ts:441-448 | The delete removes exactly the rows with that id |
| Rooms.DeleteRoom | src/controllers/roomController.ts:402-447 | An unknown id gets 404, and an owner of another hostel gets 403. A room with active students gets 400. The delete succeeds (200) exactly when none of these applies, and then removes exactly that room. A refused one writes nothing |
| Rooms.DeletedRoomNotFound | src/controllers/roomController.ts:402-443 | After a successful delete, fetching the room gives 404 |
| Incomes.Scope | src/controllers/incomeController.ts:28-36 | Only an owner without a hostel is refused, with 403. An owner is restricted to their non-zero hostel, and other roles are not restricted |
| Incomes.InScope | src/controllers/incomeController.ts:28-36 | No contract of its own: a row is in scope when there is no restriction or it is in the restricted hostel. Used by Incomes.SelectIncome |
| Incomes.InDates | src/controllers/incomeController.ts:39-41 | No contract of its own: the date filter applies only when both dates are non-empty, and then requires the row's date between them. Used by Incomes.SelectIncome |
| Incomes.SelectIncome | src/controllers/incomeController.ts:28-41 | A row is listed exactly when it is in scope and, when both dates are given, its date lies between them inclusive |
| Incomes.GetAllIncome | src/controllers/incomeController.ts:10-48 | An owner without a hostel gets 403. An owner sees exactly their hostel's rows in the date range. Other roles see every row in the range |
| Incomes.OwnerIncomeIgnoresOtherHostels | src/controllers/incomeController.ts:28-36 | Adding other hostels' rows does not change an owner's listing |
| Incomes.ReversedRangeListsNothing | src/controllers/incomeController.ts:39-41 | A start date after the end date lists nothing |
| Incomes.Sources | src/controllers/incomeController.ts:249-253 | The groups are distinct and are exactly the sources present, NULL included |
| Incomes.GroupsPartition | src/controllers/incomeController.ts:249-253 | Summing any per-row weight over distinct groups that cover every row gives the total over all rows |
| Incomes.GroupLine | src/controllers/incomeController.ts:250-252 | A group's count is its number of rows. Its total is the sum of its non-NULL amounts, and is NULL exactly when all its amounts are NULL |
| Incomes.Summarise | src/controllers/incomeController.ts:249-253 | There is one line per distinct source, and line i is the group line of source i |
| Incomes.GetIncomeSummary | src/controllers/incomeController.ts:245-266 | An owner without a hostel gets 403. Otherwise the reply is the summary of exactly the caller's rows. Each line is its own source's group line (COUNT, and a SUM that is NULL when every amount is), sources are distinct, and every visible row's source has a line |
| Incomes.SummariseAccountsFor | src/controllers/incomeController.ts:249-253 | Grouping any rows by source gives lines whose sources are exactly the rows' sources. Their counts add up to the number of rows, and their totals to the sum of the amounts |
| Incomes.SummaryAccountsForEveryRow | src/controllers/incomeController.ts:249-264 | Every visible row's source has a line, and every line is the source of some visible row. The counts add up to the number of visible rows, and the totals add up to the sum of their amounts |
| Incomes.AdminHostel | src/controllers/incomeController.ts:93-99 | An administrator's hostel is parsed from the body and is never 0 |
| Incomes.AdminHostelReadsNumbers | src/controllers/incomeController.ts:93-99 | A non-zero number, sent as a number or as its decimal text, is accepted as that hostel. Zero is refused |
| Incomes.AdminHostelRefusesMissing | src/controllers/incomeController.ts:93-99 | A missing or null hostel_id is refused |
| Incomes.IncomeTarget | src/controllers/incomeController.ts:80-100 | An owner records into their own hostel, or gets 403 when not linked. Anyone else must name a non-zero hostel, or gets 400 |
| Incomes.HasRequiredFields | src/controllers/incomeController.ts:72 | No contract of its own: income_date, amount, source and payment_mode_id must all be truthy. Used by Incomes.CreateIncome, whose contract gives 400 when it fails |
| Incomes.CreateIncome | src/controllers/incomeController.ts:59-116 | Missing fields get 400 before the hostel is decided. Success occurs exactly when the fields and the hostel check pass, and appends one row. That row has a fresh id, the target hostel and the sent values. Its receipt number and description are the sent text when truthy and NULL otherwise |
| Incomes.OwnerIncomeIgnoresBodyHostel | src/controllers/incomeController.ts:82-90 | For an owner, the hostel_id in the body changes nothing |
| Incomes.FindIncome | src/controllers/incomeController.ts:141-143 | The lookup finds a row exactly when one has that id, and the row it returns has that id |
| Incomes.IncomeOwnershipError | src/controllers/incomeController.ts:152-166 | An owner may touch a row only when they are linked and the row is in their hostel. Other roles pass |
| Incomes.Edited | src/controllers/incomeController.ts:168-178 | Date, amount, source and payment mode are written when not undefined, and otherwise kept. The receipt number and description are always written, as the sent text when truthy and NULL otherwise. Id and hostel are kept, and updated_at is stamped |
| Incomes.EmptyEditClearsNotes | src/controllers/incomeController.ts:175-176 | An update with no fields still clears the receipt number and the description |
| Incomes.EditIdempotent | src/controllers/incomeController.ts:168-178 | Applying the same edit twice at the same time is the same as applying it once |
| Incomes.UpdateIncome | src/controllers/incomeController.ts:127-180 | An unknown id gets 404, and an owner outside the row's hostel gets 403. The update succeeds (200) exactly when neither applies, and then only the row with that id is edited. A refused update writes nothing |
| Incomes.RemoveIncome | src/controllers/incomeController.ts:227-229 | The delete removes exactly the rows with that id |
| Incomes.DeleteIncome | src/controllers/incomeController.ts:194-234 | An unknown id gets 404, and an owner outside the row's hostel gets 403. The delete succeeds (200) exactly when neither applies, and then removes exactly that row. A refused delete writes nothing |
| Incomes.OwnerChangesOnlyOwnRows | src/controllers/incomeController.ts:152-166 | A successful update or delete by an owner touched a row of their own hostel |
| IncomeAnalytics.TextOr | src/controllers/incomeController.ts:336-337 | `cell \|\| fallback` keeps a non-empty text and otherwise gives the fallback |
| IncomeAnalytics.IncomeTxn | src/controllers/incomeController.ts:334-342 | An income entry's id starts "inc_" and it carries the row's description, amount and date. Its title is the row's source when that is non-empty |
| IncomeAnalytics.FeeTxn | src/controllers/incomeController.ts:343-351 | A fee entry's id starts "fee_" and it carries the payment's student, amount and date |
| IncomeAnalytics.EntryIdsInjective | src/controllers/incomeController.ts:335-344 | Two income entries share an id exactly when their income_id is equal, and two fee entries exactly when their payment_id is |
| IncomeAnalytics.PrefixedIdsInjective | src/controllers/incomeController.ts:335-344 | A fixed prefix followed by an integer's decimal text determines the integer |
| IncomeAnalytics.PeriodRange | src/controllers/incomeController.ts:293-309 | No contract of its own: a day report covers that day, a week report the seven days ending on it, and any other type the month containing it. The week and month bounds come from the clock parameter |
| IncomeAnalytics.EntryIdsDistinct | src/controllers/incomeController.ts:335-344 | An income entry and a fee entry never share an id |
| IncomeAnalytics.AnalyticsHostel | src/controllers/incomeController.ts:316-318 | The report is restricted to a hostel exactly for an owner linked to one, and to that owner's hostel |
| IncomeAnalytics.IncomeEntries | src/controllers/incomeController.ts:312-342 | The income entries are exactly the in-range, in-scope income rows, mapped to transactions |
| IncomeAnalytics.FeeEntries | src/controllers/incomeController.ts:322-351 | The fee entries are exactly the in-range, in-scope fee payments, mapped to transactions |
| IncomeAnalytics.Entries | src/controllers/incomeController.ts:333-351 | An entry is merged exactly when it is one of the income entries or one of the fee entries for the report's range and hostel |
| IncomeAnalytics.Insert | src/controllers/incomeController.ts:352 | Inserting into a newest-first list keeps it newest first, and adds exactly the new entry |
| IncomeAnalytics.SortNewestFirst | src/controllers/incomeController.ts:352 | The sort orders the entries newest first and is a permutation of them |
| IncomeAnalytics.SortKeepsTies | src/controllers/incomeController.ts:352 | The sort is stable: entries with the same time keep their relative order |
| IncomeAnalytics.Take | src/controllers/incomeController.ts:396 | The cut keeps at most 50 entries, all of them when there are fewer, and exactly 50 otherwise |
| IncomeAnalytics.TakeKeepsNewest | src/controllers/incomeController.ts:396 | The kept entries are a prefix of the sorted list, and none of them is older than any dropped entry |
| IncomeAnalytics.SortedTakeKeeps | src/controllers/incomeController.ts:352-396 | Sorting and keeping 50 yields min(all, 50) entries, newest first, drawn from the merged entries |
| IncomeAnalytics.SortedTakeDropsOlder | src/controllers/incomeController.ts:352-396 | After sorting and truncating, any entry newer than a kept one is itself kept |
| IncomeAnalytics.BlocksPartitionDays | src/controllers/incomeController.ts:383-387 | Days 1 to 28 fall in exactly one block, day d in block (d-1)/7. Other days fall in none |
| IncomeAnalytics.Block | src/controllers/incomeController.ts:384-387 | A block holds exactly the entries whose day of the month falls in it |
| IncomeAnalytics.AmountSum | src/controllers/incomeController.ts:387 | A sum is NaN exactly when some entry's amount is missing |
| IncomeAnalytics.MonthGraph | src/controllers/incomeController.ts:383-389 | The month graph has four points, "Week 1" to "Week 4", each the sum of its block |
| IncomeAnalytics.BlockSizesAddUp | src/controllers/incomeController.ts:383-389 | The four blocks together hold every entry dated on days 1 to 28 |
| IncomeAnalytics.MonthGraphAddsUp | src/controllers/incomeController.ts:383-389 | When every amount is present, the four points add up to the total of the entries on days 1 to 28 |
| IncomeAnalytics.GetIncomeAnalytics | src/controllers/incomeController.ts:282-400 | A missing or empty date gets 400. Otherwise the transactions are the first 50 of the merged entries, stably sorted newest first. Every entry newer than one kept is itself kept. A month report's graph is built from the whole sorted list, not just the kept 50, and has four points |
| IncomeAnalytics.UnlinkedOwnerSeesEverything | src/controllers/incomeController.ts:316-318 | An owner without a hostel gets the same report as an administrator |
| IncomeAnalytics.LinkedOwnerSeesOwnHostel | src/controllers/incomeController.ts:316-329 | Every entry a linked owner sees comes from a row of their own hostel |

## Left out

- The monthly-fee ledger, the other controllers, the jobs and the `.d.ts` declaration files: they are outside this model. `getRoomTypes` is left out as well.
- Excel export (`incomeController.ts` lines 408-518): file formatting with no decision logic worth proving.
- JWT signature and expiry checking: the verifier is a parameter of `Auth.Authenticate`, and `None` stands for a throw.
- `JSON.parse` of the amenities column: it is a parameter (`JsonParser`). A parse result that is not an array of strings is not modelled.
- Every `orderBy`: listings are modelled as sets of rows, with no order. This covers rooms by room number, income by date, and the summary by total.
- The joined display columns (`hostel_name`, `room_type_name`, `payment_mode` in listings): they only decorate rows. The payment-mode name is modelled where analytics uses it.
- JavaScript numbers in a request body are modelled as integers below 10^21 in magnitude (`Js.PlainInt`). From 10^21 on, `String` writes exponent form (`parseInt(String(1e21))` is 1), and fractional numbers such as `2.9` are read by `parseInt` as their integer part. Neither is modelled, nor the loss of precision beyond 2^53.
- Each request-body field is modelled with one JSON type: text fields as strings, and ids, amounts and rents as numbers. A number sent as text is not modelled, although JavaScript treats a text such as "0" as truthy where the number 0 is falsy (the required-field checks at `incomeController.ts` line 72 and `roomController.ts` line 268). Only `hostel_id` in createIncome, which goes through `parseInt`, may be either (`Js.Scalar`).
- Money amounts are integers. `parseFloat`, fractional rupees and the float totals of analytics (`rent`, `other`, `total_amount`) are left out.
- The day and week graphs of analytics: they are fixed percentages of a float total, or need calendar arithmetic. Only the month graph is modelled.
- JavaScript `Date`: the period start and end, each entry's time and day of the month come from a `Clock` parameter. Time zones and invalid dates (NaN times) are not modelled.
- `toLowerCase` is modelled as ASCII case folding. Every keyword either heuristic looks for is ASCII.
- IncomeAnalytics.AmountSum: a NaN sum is modelled as `None`. The float sum of present amounts is modelled as an integer sum.
- SQLite AUTOINCREMENT: a new key is one more than the largest key in use, so a key freed by a delete could be reused.
- Column defaults on insert (`created_at`, `updated_at`): the creation time is a parameter, and `updated_at` starts NULL.
- Query-string and path parameters are modelled as the values SQLite compares them with. SQLite's type affinity is not modelled.
- FixRoomCapacities.Cleanup: a room type whose name is NULL makes the script throw and stop. The model reads a NULL name as empty text and carries on.
- Database failures, `500` replies, console logging and `process.exit`.
- `Promise.all` over the rooms is modelled as a sequential map. The queries read only, so the order does not matter.

=== FILE: analytics.dfy ===
/**
 * `getIncomeAnalytics` of `incomeController.ts`: the income rows and fee
 * payments of a period merged into one list of transactions, newest first
 * and cut to 50, and for a month the sums of its four seven-day blocks.
 *
 * What JavaScript's `Date` computes is taken as given by a `Clock`: the
 * first day of the week ending on a date, the first and last day of a
 * date's month, the timestamp of a stored date and its day of the month.
 * Amounts are whole numbers; `None` is the NaN that `parseFloat(null)` gives.
 */
module IncomeAnalytics {
  import opened Wrappers
  import opened Js
  import opened Http
  import opened Sql
  import opened RoomTables
  import opened Incomes

  const DATE_REQUIRED := "Date is required"
  /** `transactions.slice(0, 50)` */
  const MAX_TRANSACTIONS := 50
  /** The month graph has this many blocks of seven days. */
  const MONTH_BLOCKS := 4

  /** A row of `fee_payments`. */
  datatype FeePayment = FeePayment(
    paymentId: int,
    hostelId: int,
    studentId: Option<int>,
    amount: Option<int>,
    paymentDate: Option<string>,
    paymentModeId: Option<int>)

  /** A row of `payment_modes`. */
  datatype PaymentMode = PaymentMode(paymentModeId: int, name: Option<string>)

  /** The results of `Date` arithmetic the handler relies on. */
  datatype Clock = Clock(
    weekStart: string -> string,
    monthRange: string -> (string, string),
    time: Option<string> -> int,
    dayOfMonth: Option<string> -> int)

  /** The `type` query parameter: `'day'`, `'week'`, or anything else, which means a month. */
  datatype Period = Day | Week | Month

  function PeriodOf(kind: Option<string>): Period {
    if kind == Some("day") then Day else if kind == Some("week") then Week else Month
  }

  /** The first and last date of the period that contains `date`. */
  function PeriodRange(period: Period, date: string, clock: Clock): (string, string) {
    match period
    case Day => (date, date)
    case Week => (clock.weekStart(date), date)
    case Month => clock.monthRange(date)
  }

  // ------------------------------------------------ transactions

  datatype TxnKind = OtherIncome(description: Option<string>) | Rent(studentId: Option<int>)

  /** One entry of the merged list. */
  datatype Txn = Txn(id: string, kind: TxnKind, title: string, subtitle: string, amount: Option<int>, date: Option<string>)

  /** The payment mode's name through the left join, `None` when there is no match or the name is NULL. */
  function ModeName(modes: seq<PaymentMode>, id: Option<int>): Option<string> {
    if id.None? || |modes| == 0 then None
    else if modes[0].paymentModeId == id.value then modes[0].name
    else ModeName(modes[1..], id)
  }

  /** The student through the left join on `student_id`. */
  function FindStudent(students: seq<Student>, id: Option<int>): Option<Student> {
    if id.None? || |students| == 0 then None
    else if students[0].studentId == id.value then Some(students[0])
    else FindStudent(students[1..], id)
  }

  /** `x || fallback` for a text cell. */
  function TextOr(cell: Option<string>, fallback: string): (r: string)
    ensures TruthyText(cell) ==> r == cell.value
    ensures !TruthyText(cell) ==> r == fallback
  {
    if TruthyText(cell) then cell.value else fallback
  }

  /** The entry for an income row. */
  function IncomeTxn(x: Income, modes: seq<PaymentMode>): (t: Txn)
    ensures |t.id| >= 4 && t.id[..4] == "inc_" && t.kind == OtherIncome(x.description)
    ensures t.amount == x.amount && t.date == x.incomeDate
    ensures x.source.Some? && x.source.value != "" ==> t.title == x.source.value
  {
    Txn("inc_" + IntToString(x.incomeId), OtherIncome(x.description), TextOr(x.source, "Other Income"),
        TextOr(ModeName(modes, x.paymentModeId), "Cash"), x.amount, x.incomeDate)
  }

  /**
   * The prefix of a rent entry's subtitle. The handler's literal holds the
   * two characters U+00C2 U+00B7 (a middle dot saved in the wrong encoding),
   * and they are kept as written.
   */
  const RENT_PREFIX: string := "Rent \U{00C2}\U{00B7} "

  /** The entry for a fee payment. */
  function FeeTxn(p: FeePayment, students: seq<Student>, modes: seq<PaymentMode>): (t: Txn)
    ensures |t.id| >= 4 && t.id[..4] == "fee_" && t.kind == Rent(p.studentId)
    ensures t.amount == p.amount && t.date == p.paymentDate
  {
    var student := FindStudent(students, p.studentId);
    var first := if student.Some? then student.value.firstName else None;
    var last := if student.Some? then student.value.lastName else None;
    Txn("fee_" + IntToString(p.paymentId), Rent(p.studentId), TextOr(first, "Student") + " " + TextOr(last, ""),
        RENT_PREFIX + TextOr(ModeName(modes, p.paymentModeId), "Cash"), p.amount, p.paymentDate)
  }

  /** Income ids and payment ids give distinct entry ids: one kind starts "inc_", the other "fee_". */
  lemma EntryIdsDistinct(x: Income, p: FeePayment, students: seq<Student>, modes: seq<PaymentMode>)
    ensures IncomeTxn(x, modes).id != FeeTxn(p, students, modes).id
  {
    assert IncomeTxn(x, modes).id[0] == 'i';
    assert FeeTxn(p, students, modes).id[0] == 'f';
  }

  /** Two entry ids with the same prefix are equal exactly when their numbers are. */
  lemma {:induction false} PrefixedIdsInjective(prefix: string, a: int, b: int)
    ensures prefix + IntToString(a) == prefix + IntToString(b) <==> a == b
  {
    if prefix + IntToString(a) == prefix + IntToString(b) {
      assert IntToString(a) == (prefix + IntToString(a))[|prefix|..];
      assert IntToString(b) == (prefix + IntToString(b))[|prefix|..];
      ParseIntOfIntToString(a);
      ParseIntOfIntToString(b);
    }
  }

  /** Distinct income rows give distinct entry ids, and so do distinct fee payments. */
  lemma EntryIdsInjective(x: Income, y: Income, p: FeePayment, q: FeePayment, students: seq<Student>, modes: seq<PaymentMode>)
    ensures IncomeTxn(x, modes).id == IncomeTxn(y, modes).id <==> x.incomeId == y.incomeId
    ensures FeeTxn(p, students, modes).id == FeeTxn(q, students, modes).id <==> p.paymentId == q.paymentId
  {
    PrefixedIdsInjective("inc_", x.incomeId, y.incomeId);
    PrefixedIdsInjective("fee_", p.paymentId, q.paymentId);
  }

  /** The hostel the analytics are confined to: only an owner whose token names a hostel is filtered. */
  function AnalyticsHostel(user: Option<TokenPayload>): (h: Option<int>)
    ensures h.Some? <==> HasRole(user, OWNER_ROLE) && LinkedHostel(user.value).Some?
    ensures h.Some? ==> h == user.value.hostelId
  {
    if HasRole(user, OWNER_ROLE) then LinkedHostel(user.value) else None
  }

  function IncomeEntries(rows: seq<Income>, hostel: Option<int>, lo: string, hi: string, modes: seq<PaymentMode>)
    : (r: seq<Txn>)
    ensures forall t :: t in r <==> exists x :: (x in rows && Between(x.incomeDate, lo, hi)
      && (hostel.None? || x.hostelId == hostel.value) && t == IncomeTxn(x, modes))
  {
    if |rows| == 0 then []
    else
      var rest := IncomeEntries(rows[1..], hostel, lo, hi, modes);
      assert forall x :: x in rows <==> x == rows[0] || x in rows[1..];
      if Between(rows[0].incomeDate, lo, hi) && (hostel.None? || rows[0].hostelId == hostel.value)
      then [IncomeTxn(rows[0], modes)] + rest
      else rest
  }

  function FeeEntries(rows: seq<FeePayment>, hostel: Option<int>, lo: string, hi: string, students: seq<Student>,
                      modes: seq<PaymentMode>): (r: seq<Txn>)
    ensures forall t :: t in r <==> exists p :: (p in rows && Between(p.paymentDate, lo, hi)
      && (hostel.None? || p.hostelId == hostel.value) && t == FeeTxn(p, students, modes))
  {
    if |rows| == 0 then []
    else
      var rest := FeeEntries(rows[1..], hostel, lo, hi, students, modes);
      assert forall p :: p in rows <==> p == rows[0] || p in rows[1..];
      if Between(rows[0].paymentDate, lo, hi) && (hostel.None? || rows[0].hostelId == hostel.value)
      then [FeeTxn(rows[0], students, modes)] + rest
      else rest
  }

  // ------------------------------------------------ newest first

  function TimeOf(clock: Clock, t: Txn): int {
    clock.time(t.date)
  }

  predicate NewestFirst(clock: Clock, s: seq<Txn>) {
    forall i, j :: 0 <= i < j < |s| ==> TimeOf(clock, s[i]) >= TimeOf(clock, s[j])
  }

  /** Places `t` after the strictly newer entries of `s` and before the rest. */
  function Insert(clock: Clock, t: Txn, s: seq<Txn>): (r: seq<Txn>)
    requires NewestFirst(clock, s)
    ensures NewestFirst(clock, r)
    ensures multiset(r) == multiset(s) + multiset{t}
  {
    if |s| == 0 then [t]
    else if TimeOf(clock, s[0]) > TimeOf(clock, t) then
      var rest := Insert(clock, t, s[1..]);
      NewerHeadKeepsOrder(clock, s, t, rest);
      assert s == [s[0]] + s[1..];
      [s[0]] + rest
    else
      NewestFirstCons(clock, t, s);
      [t] + s
  }

  lemma NewestFirstCons(clock: Clock, x: Txn, s: seq<Txn>)
    requires NewestFirst(clock, s)
    requires |s| > 0 ==> TimeOf(clock, x) >= TimeOf(clock, s[0])
    ensures NewestFirst(clock, [x] + s)
  {
    var r := [x] + s;
    forall i, j | 0 <= i < j < |r| ensures TimeOf(clock, r[i]) >= TimeOf(clock, r[j]) {
      if i == 0 {
        assert r[j] == s[j - 1];
        assert TimeOf(clock, s[0]) >= TimeOf(clock, s[j - 1]);
      } else {
        assert r[i] == s[i - 1] && r[j] == s[j - 1];
      }
    }
  }

  lemma NewerHeadKeepsOrder(clock: Clock, s: seq<Txn>, t: Txn, rest: seq<Txn>)
    requires |s| > 0 && NewestFirst(clock, s) && TimeOf(clock, s[0]) > TimeOf(clock, t)
    requires NewestFirst(clock, rest) && multiset(rest) == multiset(s[1..]) + multiset{t}
    ensures NewestFirst(clock, [s[0]] + rest)
  {
    if |rest| > 0 {
      assert rest[0] in multiset(rest);
      if rest[0] != t {
        assert rest[0] in multiset(s[1..]);
        var m :| 0 <= m < |s[1..]| && s[1..][m] == rest[0];
        assert s[m + 1] == rest[0];
      }
    }
    NewestFirstCons(clock, s[0], rest);
  }

  /**
   * `sort((a, b) => time(b) - time(a))`: newest first, and, since the sort is
   * stable, entries with the same timestamp keep their order.
   */
  function SortNewestFirst(clock: Clock, s: seq<Txn>): (r: seq<Txn>)
    ensures NewestFirst(clock, r)
    ensures multiset(r) == multiset(s)
    ensures |r| == |s|
  {
    if |s| == 0 then []
    else
      assert s == [s[0]] + s[1..];
      var r := Insert(clock, s[0], SortNewestFirst(clock, s[1..]));
      assert |r| == |multiset(r)|;
      r
  }

  /** The entries of `s` with timestamp `v`, in order. */
  function AtTime(clock: Clock, s: seq<Txn>, v: int): seq<Txn> {
    if |s| == 0 then []
    else (if TimeOf(clock, s[0]) == v then [s[0]] else []) + AtTime(clock, s[1..], v)
  }

  lemma {:induction false} InsertAtTime(clock: Clock, t: Txn, s: seq<Txn>, v: int)
    requires NewestFirst(clock, s)
    ensures AtTime(clock, Insert(clock, t, s), v)
         == if TimeOf(clock, t) == v then [t] + AtTime(clock, s, v) else AtTime(clock, s, v)
    decreases |s|
  {
    if |s| == 0 {
    } else if TimeOf(clock, s[0]) > TimeOf(clock, t) {
      var rest := Insert(clock, t, s[1..]);
      InsertAtTime(clock, t, s[1..], v);
      assert ([s[0]] + rest)[1..] == rest;
    } else {
      assert ([t] + s)[1..] == s;
    }
  }

  /** The sort is stable: for every timestamp, the entries carrying it appear in their original order. */
  lemma {:induction false} SortKeepsTies(clock: Clock, s: seq<Txn>, v: int)
    ensures AtTime(clock, SortNewestFirst(clock, s), v) == AtTime(clock, s, v)
    decreases |s|
  {
    if |s| > 0 {
      SortKeepsTies(clock, s[1..], v);
      InsertAtTime(clock, s[0], SortNewestFirst(clock, s[1..]), v);
    }
  }

  /** `slice(0, n)` */
  function Take(s: seq<Txn>, n: nat): (r: seq<Txn>)
    ensures |r| <= n && |r| <= |s|
    ensures |s| <= n ==> r == s
    ensures |s| > n ==> |r| == n
  {
    if |s| <= n then s else s[..n]
  }

  /** Truncating a newest-first list keeps the newest entries: none dropped is newer than one kept. */
  lemma TakeKeepsNewest(clock: Clock, s: seq<Txn>, n: nat)
    requires NewestFirst(clock, s)
    ensures Take(s, n) == s[..|Take(s, n)|]
    ensures forall i, j :: 0 <= i < |Take(s, n)| <= j < |s| ==> TimeOf(clock, s[i]) >= TimeOf(clock, s[j])
  {
  }

  /** Sorting newest first and keeping `n` entries keeps `n` of them (or all), newest first. */
  lemma SortedTakeKeeps(clock: Clock, all: seq<Txn>, n: nat)
    ensures var kept := Take(SortNewestFirst(clock, all), n);
      NewestFirst(clock, kept) && |kept| == (if |all| <= n then |all| else n) && multiset(kept) <= multiset(all)
  {
    var sorted := SortNewestFirst(clock, all);
    var kept := Take(sorted, n);
    TakeKeepsNewest(clock, sorted, n);
    assert sorted == kept + sorted[|kept|..];
    assert multiset(sorted) == multiset(kept) + multiset(sorted[|kept|..]);
  }

  /** Keeping `n` entries of a newest-first list keeps every entry newer than one kept. */
  lemma TakeKeepsNewer(clock: Clock, s: seq<Txn>, n: nat, j: int, k: int)
    requires NewestFirst(clock, s)
    requires 0 <= j < |s| && 0 <= k < |Take(s, n)|
    requires TimeOf(clock, s[j]) > TimeOf(clock, Take(s, n)[k])
    ensures s[j] in Take(s, n)
  {
    var kept := Take(s, n);
    TakeKeepsNewest(clock, s, n);
    assert kept[k] == s[k];
    assert j < |kept|;
    assert kept[j] == s[j];
  }

  /** Sorting newest first and keeping `n` entries keeps every entry newer than one kept. */
  lemma SortedTakeDropsOlder(clock: Clock, all: seq<Txn>, n: nat)
    ensures var kept := Take(SortNewestFirst(clock, all), n);
      forall t, k | t in all && 0 <= k < |kept| && TimeOf(clock, t) > TimeOf(clock, kept[k]) :: t in kept
  {
    var sorted := SortNewestFirst(clock, all);
    var kept := Take(sorted, n);
    forall t, k | t in all && 0 <= k < |kept| && TimeOf(clock, t) > TimeOf(clock, kept[k])
      ensures t in kept
    {
      assert t in multiset(sorted);
      var j :| 0 <= j < |sorted| && sorted[j] == t;
      TakeKeepsNewer(clock, sorted, n, j, k);
    }
  }

  // ------------------------------------------------ the month graph

  /** Day `day` of the month counts in block `i` (0 to 3): `i * 7 < day <= (i + 1) * 7`. */
  predicate InBlock(day: int, i: int) {
    i * 7 < day <= (i + 1) * 7
  }

  /** Days 1 to 28 fall in exactly one block, day `d` in block `(d - 1) / 7`; other days in none. */
  lemma BlocksPartitionDays(day: int)
    ensures 1 <= day <= 28 ==> InBlock(day, (day - 1) / 7) && 0 <= (day - 1) / 7 < MONTH_BLOCKS
    ensures forall i, j :: InBlock(day, i) && InBlock(day, j) ==> i == j
    ensures !(1 <= day <= 28) ==> forall i :: 0 <= i < MONTH_BLOCKS ==> !InBlock(day, i)
  {
  }

  function DayOf(clock: Clock, t: Txn): int {
    clock.dayOfMonth(t.date)
  }

  /** The entries of block `i`. */
  function Block(clock: Clock, s: seq<Txn>, i: int): (r: seq<Txn>)
    ensures forall t :: t in r <==> t in s && InBlock(DayOf(clock, t), i)
  {
    if |s| == 0 then []
    else
      assert forall t :: t in s <==> t == s[0] || t in s[1..];
      (if InBlock(DayOf(clock, s[0]), i) then [s[0]] else []) + Block(clock, s[1..], i)
  }

  /** `reduce((s, t) => s + t.amount, 0)`: NaN as soon as one amount is NaN. */
  function AmountSum(s: seq<Txn>): (r: Option<int>)
    ensures r.None? <==> exists t :: t in s && t.amount.None?
  {
    if |s| == 0 then Some(0)
    else
      var rest := AmountSum(s[1..]);
      assert forall t :: t in s <==> t == s[0] || t in s[1..];
      if s[0].amount.Some? && rest.Some? then Some(s[0].amount.value + rest.value) else None
  }

  /** A labelled point of the graph. */
  datatype Point = Point(caption: string, value: Option<int>)

  function MonthGraph(clock: Clock, s: seq<Txn>): (g: seq<Point>)
    ensures |g| == MONTH_BLOCKS
    ensures forall i :: 0 <= i < MONTH_BLOCKS ==> g[i] == Point("Week " + IntToString(i + 1), AmountSum(Block(clock, s, i)))
  {
    seq(MONTH_BLOCKS, i requires 0 <= i < MONTH_BLOCKS => Point("Week " + IntToString(i + 1), AmountSum(Block(clock, s, i))))
  }

  /** The entries dated on days 1 to 28. */
  function EarlyDays(clock: Clock, s: seq<Txn>): seq<Txn> {
    if |s| == 0 then []
    else (if 1 <= DayOf(clock, s[0]) <= 28 then [s[0]] else []) + EarlyDays(clock, s[1..])
  }

  /** The sum of `w` over the entries of `s`. */
  function Weigh(s: seq<Txn>, w: Txn -> int): int {
    if |s| == 0 then 0 else w(s[0]) + Weigh(s[1..], w)
  }

  function AmountOf(t: Txn): int {
    t.amount.GetOr(0)
  }

  function Unit(t: Txn): int {
    1
  }

  lemma WeighCons(x: Txn, keep: bool, rest: seq<Txn>, w: Txn -> int)
    ensures Weigh((if keep then [x] else []) + rest, w) == (if keep then w(x) else 0) + Weigh(rest, w)
  {
    if keep {
      assert ([x] + rest)[1..] == rest;
    } else {
      assert [] + rest == rest;
    }
  }

  lemma {:induction false} WeighUnitIsLength(s: seq<Txn>)
    ensures Weigh(s, Unit) == |s|
    decreases |s|
  {
    if |s| > 0 {
      WeighUnitIsLength(s[1..]);
    }
  }

  lemma {:induction false} AmountSumIsWeight(s: seq<Txn>)
    requires forall t :: t in s ==> t.amount.Some?
    ensures AmountSum(s) == Some(Weigh(s, AmountOf))
    decreases |s|
  {
    if |s| > 0 {
      assert forall t :: t in s[1..] ==> t in s;
      AmountSumIsWeight(s[1..]);
    }
  }

  /** The four blocks together hold every entry of days 1 to 28 exactly once, whatever is weighed. */
  lemma {:induction false} BlocksCoverEarlyDays(clock: Clock, s: seq<Txn>, w: Txn -> int)
    ensures Weigh(Block(clock, s, 0), w) + Weigh(Block(clock, s, 1), w) + Weigh(Block(clock, s, 2), w)
          + Weigh(Block(clock, s, 3), w) == Weigh(EarlyDays(clock, s), w)
    decreases |s|
  {
    if |s| > 0 {
      var x := s[0];
      var d := DayOf(clock, x);
      BlocksCoverEarlyDays(clock, s[1..], w);
      BlocksPartitionDays(d);
      WeighCons(x, InBlock(d, 0), Block(clock, s[1..], 0), w);
      WeighCons(x, InBlock(d, 1), Block(clock, s[1..], 1), w);
      WeighCons(x, InBlock(d, 2), Block(clock, s[1..], 2), w);
      WeighCons(x, InBlock(d, 3), Block(clock, s[1..], 3), w);
      WeighCons(x, 1 <= d <= 28, EarlyDays(clock, s[1..]), w);
    }
  }

  /** The four blocks' sizes add up to the number of entries of days 1 to 28. */
  lemma BlockSizesAddUp(clock: Clock, s: seq<Txn>)
    ensures |Block(clock, s, 0)| + |Block(clock, s, 1)| + |Block(clock, s, 2)| + |Block(clock, s, 3)| == |EarlyDays(clock, s)|
  {
    BlocksCoverEarlyDays(clock, s, Unit);
    WeighUnitIsLength(Block(clock, s, 0));
    WeighUnitIsLength(Block(clock, s, 1));
    WeighUnitIsLength(Block(clock, s, 2));
    WeighUnitIsLength(Block(clock, s, 3));
    WeighUnitIsLength(EarlyDays(clock, s));
  }

  /** When no amount is NaN, the month graph's values add up to the amounts of days 1 to 28. */
  lemma MonthGraphAddsUp(clock: Clock, s: seq<Txn>)
    requires forall t :: t in s ==> t.amount.Some?
    ensures var g := MonthGraph(clock, s);
      g[0].value.Some? && g[1].value.Some? && g[2].value.Some? && g[3].value.Some?
      && g[0].value.value + g[1].value.value + g[2].value.value + g[3].value.value == Weigh(EarlyDays(clock, s), AmountOf)
  {
    var g := MonthGraph(clock, s);
    forall i | 0 <= i < MONTH_BLOCKS ensures AmountSum(Block(clock, s, i)) == Some(Weigh(Block(clock, s, i), AmountOf)) {
      AmountSumIsWeight(Block(clock, s, i));
    }
    assert g[0].value == AmountSum(Block(clock, s, 0));
    assert g[1].value == AmountSum(Block(clock, s, 1));
    assert g[2].value == AmountSum(Block(clock, s, 2));
    assert g[3].value == AmountSum(Block(clock, s, 3));
    BlocksCoverEarlyDays(clock, s, AmountOf);
  }

  // ------------------------------------------------ the handler

  /** The graph: the month's blocks; the day and week graphs are not modelled. */
  datatype Graph = MonthBlocks(points: seq<Point>) | Unmodelled

  datatype Report = Report(transactions: seq<Txn>, graph: Graph)

  /** All entries of the period, income rows first, before sorting. */
  function Entries(incomes: seq<Income>, payments: seq<FeePayment>, students: seq<Student>, modes: seq<PaymentMode>,
                   user: Option<TokenPayload>, kind: Option<string>, date: string, clock: Clock): (r: seq<Txn>)
    ensures var range := PeriodRange(PeriodOf(kind), date, clock);
      forall t :: t in r <==> (t in IncomeEntries(incomes, AnalyticsHostel(user), range.0, range.1, modes)
                               || t in FeeEntries(payments, AnalyticsHostel(user), range.0, range.1, students, modes))
  {
    var range := PeriodRange(PeriodOf(kind), date, clock);
    var hostel := AnalyticsHostel(user);
    IncomeEntries(incomes, hostel, range.0, range.1, modes) + FeeEntries(payments, hostel, range.0, range.1, students, modes)
  }

  /** `getIncomeAnalytics` */
  function GetIncomeAnalytics(incomes: seq<Income>, payments: seq<FeePayment>, students: seq<Student>,
                              modes: seq<PaymentMode>, user: Option<TokenPayload>, kind: Option<string>,
                              date: Option<string>, clock: Clock): (r: Reply<Report>)
    ensures r.Fail? <==> !TruthyText(date)
    ensures r.Fail? ==> r == Fail(400, DATE_REQUIRED)
    ensures r.Ok? ==> r.status == 200
    ensures r.Ok? ==> var all := Entries(incomes, payments, students, modes, user, kind, date.value, clock);
      && NewestFirst(clock, r.value.transactions)
      && |r.value.transactions| == (if |all| <= MAX_TRANSACTIONS then |all| else MAX_TRANSACTIONS)
      && multiset(r.value.transactions) <= multiset(all)
    ensures r.Ok? ==> var all := Entries(incomes, payments, students, modes, user, kind, date.value, clock);
      r.value.transactions == Take(SortNewestFirst(clock, all), MAX_TRANSACTIONS)
    ensures r.Ok? ==> var all := Entries(incomes, payments, students, modes, user, kind, date.value, clock);
      forall t, k | t in all && 0 <= k < |r.value.transactions| && TimeOf(clock, t) > TimeOf(clock, r.value.transactions[k])
        :: t in r.value.transactions
    ensures r.Ok? && PeriodOf(kind) == Month ==> r.value.graph.MonthBlocks? && |r.value.graph.points| == MONTH_BLOCKS
    ensures r.Ok? && PeriodOf(kind) == Month ==>
      r.value.graph == MonthBlocks(MonthGraph(clock, SortNewestFirst(clock, Entries(incomes, payments, students, modes, user, kind, date.value, clock))))
  {
    if !TruthyText(date) then Fail(400, DATE_REQUIRED)
    else
      var all := Entries(incomes, payments, students, modes, user, kind, date.value, clock);
      var sorted := SortNewestFirst(clock, all);
      var kept := Take(sorted, MAX_TRANSACTIONS);
      SortedTakeKeeps(clock, all, MAX_TRANSACTIONS);
      SortedTakeDropsOlder(clock, all, MAX_TRANSACTIONS);
      var graph := if PeriodOf(kind) == Month then MonthBlocks(MonthGraph(clock, sorted)) else Unmodelled;
      Ok(200, Report(kept, graph))
  }

  /**
   * An owner whose token names no hostel is not refused: they get the same
   * report as a caller who is not an owner at all.
   */
  lemma UnlinkedOwnerSeesEverything(incomes: seq<Income>, payments: seq<FeePayment>, students: seq<Student>,
                                    modes: seq<PaymentMode>, owner: TokenPayload, other: Option<TokenPayload>,
                                    kind: Option<string>, date: Option<string>, clock: Clock)
    requires owner.roleId == OWNER_ROLE && LinkedHostel(owner).None?
    requires !HasRole(other, OWNER_ROLE)
    ensures GetIncomeAnalytics(incomes, payments, students, modes, Some(owner), kind, date, clock)
         == GetIncomeAnalytics(incomes, payments, students, modes, other, kind, date, clock)
  {
    assert AnalyticsHostel(Some(owner)) == AnalyticsHostel(other);
  }

  /** A linked owner's entries all come from rows of the token's hostel. */
  lemma LinkedOwnerSeesOwnHostel(incomes: seq<Income>, payments: seq<FeePayment>, students: seq<Student>,
                                 modes: seq<PaymentMode>, user: Option<TokenPayload>, kind: Option<string>,
                                 date: string, clock: Clock)
    requires HasRole(user, OWNER_ROLE) && LinkedHostel(user.value).Some?
    ensures forall t :: t in Entries(incomes, payments, students, modes, user, kind, date, clock) ==>
      (exists x :: x in incomes && Some(x.hostelId) == user.value.hostelId && t == IncomeTxn(x, modes))
      || (exists p :: p in payments && Some(p.hostelId) == user.value.hostelId && t == FeeTxn(p, students, modes))
  {
  }
}

=== FILE: auth.dfy ===
/**
 * The bearer-token middleware and the administrator gate of the API
 * (`authMiddleware` and `isAdmin`). Verifying a token's signature and
 * expiry belongs to the JWT library; the model takes that verifier as a
 * partial function, `None` meaning it threw.
 */
module Auth {
  import opened Wrappers
  import opened Js
  import opened Http

  /** What a middleware does: answer the request itself, or call `next()` once with `req.user` set. */
  datatype Gate = Reject(status: int, error: string) | Pass(user: TokenPayload)

  const BEARER: string := "Bearer "
  const MISSING_TOKEN := "Access token is required"
  const INVALID_TOKEN := "Invalid or expired token"
  const ADMIN_REQUIRED := "Admin access required"

  /**
   * The token carried by an `Authorization` header: the header minus its
   * first seven characters, when it starts with exactly "Bearer ".
   */
  function BearerToken(header: Option<string>): (t: Option<string>)
    ensures t.Some? <==> header.Some? && StartsWith(header.value, BEARER)
    ensures t.Some? ==> header.value == BEARER + t.value
  {
    if header.Some? && header.value != "" && StartsWith(header.value, BEARER)
    then Some(header.value[7..])
    else None
  }

  /** `authMiddleware`: a missing or non-bearer header is refused before the verifier runs. */
  function Authenticate(header: Option<string>, verify: string -> Option<TokenPayload>): (g: Gate)
    ensures BearerToken(header).None? ==> g == Reject(401, MISSING_TOKEN)
    ensures BearerToken(header).Some? ==>
      var payload := verify(BearerToken(header).value);
      (payload.None? ==> g == Reject(401, INVALID_TOKEN))
      && (payload.Some? ==> g == Pass(payload.value))
  {
    match BearerToken(header)
    case None => Reject(401, MISSING_TOKEN)
    case Some(token) =>
      match verify(token)
      case None => Reject(401, INVALID_TOKEN)
      case Some(payload) => Pass(payload)
  }

  /** Any header of the form "Bearer <t>" hands exactly `t` to the verifier. */
  lemma BearerTokenRoundTrip(t: string)
    ensures BearerToken(Some(BEARER + t)) == Some(t)
  {
    assert (BEARER + t)[..|BEARER|] == BEARER;
  }

  /** Without a bearer header the outcome does not depend on the verifier: it is never consulted. */
  lemma VerifierNotConsultedWithoutBearer(header: Option<string>, v1: string -> Option<TokenPayload>, v2: string -> Option<TokenPayload>)
    requires header.None? || !StartsWith(header.value, BEARER)
    ensures Authenticate(header, v1) == Authenticate(header, v2) == Reject(401, MISSING_TOKEN)
  {
  }

  /** A request passes the middleware exactly when the verifier accepts its bearer token. */
  lemma AuthenticatePassesIff(header: Option<string>, verify: string -> Option<TokenPayload>)
    ensures Authenticate(header, verify).Pass? <==>
      exists t :: header == Some(BEARER + t) && verify(t).Some?
  {
    if Authenticate(header, verify).Pass? {
      var t := BearerToken(header).value;
      assert header == Some(BEARER + t) && verify(t).Some?;
    }
    if exists t :: header == Some(BEARER + t) && verify(t).Some? {
      var t :| header == Some(BEARER + t) && verify(t).Some?;
      BearerTokenRoundTrip(t);
    }
  }

  /** `isAdmin`: only role 1 passes; a missing user or any other role gets 403. */
  function RequireAdmin(user: Option<TokenPayload>): (g: Gate)
    ensures g.Pass? <==> HasRole(user, ADMIN_ROLE)
    ensures g.Pass? ==> g.user == user.value
    ensures g.Reject? ==> g == Reject(403, ADMIN_REQUIRED)
  {
    if HasRole(user, ADMIN_ROLE) then Pass(user.value) else Reject(403, ADMIN_REQUIRED)
  }
}

=== FILE: capacity.dfy ===
/**
 * `getCapacityFromRoomTypeName` of the room controller: the number of beds a
 * room type provides, read from its name or, failing that, its description.
 *
 * A name made only of digits is that number. Otherwise the lower-cased name
 * is searched for the keywords of a fixed table, first entry first. When the
 * name says nothing, the description is searched with the regular expression
 * `/(\d+)\s*(person|bed)/i`, and when that fails too the capacity is 0.
 * A NULL name or description behaves as the empty string: both are falsy.
 */
module RoomCapacity {
  import opened Wrappers
  import opened Js

  /** The keyword table, in the order `Object.entries` visits it. */
  const KEYWORDS: seq<(string, nat)> := [
    ("single", 1), ("double", 2), ("triple", 3),
    ("four sharing", 4), ("five sharing", 5), ("six sharing", 6),
    ("dormitory", 10)
  ]

  /** Entry `k` is the first entry of `table` whose keyword occurs in `lower`. */
  predicate FirstHit(lower: string, table: seq<(string, nat)>, k: int) {
    0 <= k < |table| && Contains(lower, table[k].0)
    && forall j :: 0 <= j < k ==> !Contains(lower, table[j].0)
  }

  /** The capacity of the first table entry whose keyword occurs in `lower`. */
  function FirstKeyword(lower: string, table: seq<(string, nat)>): (r: Option<nat>)
    ensures r.None? <==> forall k :: 0 <= k < |table| ==> !Contains(lower, table[k].0)
    ensures r.Some? ==> exists k :: FirstHit(lower, table, k) && r.value == table[k].1
  {
    if |table| == 0 then None
    else if Contains(lower, table[0].0) then
      assert FirstHit(lower, table, 0);
      Some(table[0].1)
    else
      var r := FirstKeyword(lower, table[1..]);
      if r.Some? then
        var k :| FirstHit(lower, table[1..], k) && r.value == table[1..][k].1;
        assert FirstHit(lower, table, k + 1);
        r
      else
        r
  }

  /** At most one entry is the first hit. */
  lemma FirstHitUnique(lower: string, table: seq<(string, nat)>, k1: int, k2: int)
    requires FirstHit(lower, table, k1) && FirstHit(lower, table, k2)
    ensures k1 == k2
  {
  }

  // ------------------------------------------------ the description expression

  /** `(person|bed)` matches at index `k`, ignoring ASCII case. */
  predicate UnitAt(s: string, k: int) {
    OccursAt(Lower(s), "person", k) || OccursAt(Lower(s), "bed", k)
  }

  /**
   * The expression matches with its match starting at `i`, `\d+` taking `m`
   * digits and `\s*` taking `w` white-space characters.
   */
  predicate RegexMatch(s: string, i: int, m: int, w: int) {
    0 <= i && 1 <= m && 0 <= w && i + m + w <= |s|
    && (forall k :: i <= k < i + m ==> IsDigit(s[k]))
    && (forall k :: i + m <= k < i + m + w ==> IsSpace(s[k]))
    && UnitAt(s, i + m + w)
  }

  /** The expression matches at `i` with the whole digit run and the whole white-space run after it. */
  predicate MatchAt(s: string, i: int) {
    0 <= i < |s| && IsDigit(s[i]) && UnitAt(s, SpaceRunEnd(s, DigitRunEnd(s, i)))
  }

  /** The capture `(\d+)` of a match at `i`, as `parseInt` reads it. */
  function MatchValue(s: string, i: int): nat
    requires 0 <= i < |s|
  {
    DecimalValue(s[i..DigitRunEnd(s, i)])
  }

  /**
   * Whatever way the backtracking engine splits a match, `\d+` has taken the
   * whole digit run and `\s*` the whole white-space run: a digit or a space
   * can never begin "person" or "bed". So a match at `i` is unique and its
   * capture is `MatchValue(s, i)`.
   */
  lemma RegexMatchIsForced(s: string, i: int, m: int, w: int)
    requires RegexMatch(s, i, m, w)
    ensures i + m == DigitRunEnd(s, i)
    ensures i + m + w == SpaceRunEnd(s, i + m)
    ensures MatchAt(s, i)
  {
    var u := i + m + w;
    UnitStartIsLetter(s, u);
    assert !IsDigit(s[i + m]) by {
      if w > 0 {
        SpaceIsNotDigit(s[i + m]);
      }
    }
    DigitRunStopsAt(s, i, i + m);
    SpaceRunStopsAt(s, i + m, u);
    assert IsDigit(s[i]);
  }

  /** A run of digits followed by a non-digit ends exactly there. */
  lemma DigitRunStopsAt(s: string, i: int, j: int)
    requires 0 <= i <= j < |s| && !IsDigit(s[j])
    requires forall k :: i <= k < j ==> IsDigit(s[k])
    ensures DigitRunEnd(s, i) == j
  {
    DigitRunCovers(s, i, j);
  }

  /** A run of white space followed by something else ends exactly there. */
  lemma SpaceRunStopsAt(s: string, i: int, j: int)
    requires 0 <= i <= j < |s| && !IsSpace(s[j])
    requires forall k :: i <= k < j ==> IsSpace(s[k])
    ensures SpaceRunEnd(s, i) == j
  {
    SpaceRunCovers(s, i, j);
  }

  /** "person" and "bed" begin with a letter, which is neither `\d` nor `\s`. */
  lemma UnitStartIsLetter(s: string, u: int)
    requires UnitAt(s, u)
    ensures u < |s| && !IsDigit(s[u]) && !IsSpace(s[u])
  {
    var l := Lower(s);
    assert l[u] == l[u..u + 3][0];
    assert LowerChar(s[u]) == 'p' || LowerChar(s[u]) == 'b';
    assert s[u] in {'p', 'P', 'b', 'B'};
  }

  lemma SpaceIsNotDigit(c: char)
    requires IsSpace(c)
    ensures !IsDigit(c)
  {
  }

  lemma {:induction false} DigitRunCovers(s: string, i: int, j: int)
    requires 0 <= i <= j <= |s|
    requires forall k :: i <= k < j ==> IsDigit(s[k])
    ensures DigitRunEnd(s, i) >= j
    decreases j - i
  {
    if i < j {
      DigitRunCovers(s, i + 1, j);
    }
  }

  lemma {:induction false} SpaceRunCovers(s: string, i: int, j: int)
    requires 0 <= i <= j <= |s|
    requires forall k :: i <= k < j ==> IsSpace(s[k])
    ensures SpaceRunEnd(s, i) >= j
    decreases j - i
  {
    if i < j {
      SpaceRunCovers(s, i + 1, j);
    }
  }

  /** `MatchAt` is exactly "the expression matches starting at `i`". */
  lemma MatchAtIffRegexMatch(s: string, i: int)
    ensures MatchAt(s, i) <==> exists m, w :: RegexMatch(s, i, m, w)
  {
    if MatchAt(s, i) {
      var d := DigitRunEnd(s, i);
      assert RegexMatch(s, i, d - i, SpaceRunEnd(s, d) - d);
    }
    if exists m, w :: RegexMatch(s, i, m, w) {
      var m, w :| RegexMatch(s, i, m, w);
      RegexMatchIsForced(s, i, m, w);
    }
  }

  /** `k` is the leftmost start at or after `i` where the expression matches. */
  predicate LeftmostFrom(s: string, i: int, k: int) {
    i <= k < |s| && MatchAt(s, k) && forall j :: i <= j < k ==> !MatchAt(s, j)
  }

  lemma LeftmostUnique(s: string, i: int, k1: int, k2: int)
    requires LeftmostFrom(s, i, k1) && LeftmostFrom(s, i, k2)
    ensures k1 == k2
  {
  }

  /** `k` is the first index in `[i, n)` where `p` holds. */
  predicate FirstFrom(p: int -> bool, i: int, n: int, k: int) {
    i <= k < n && p(k) && forall j :: i <= j < k ==> !p(j)
  }

  /** The first index in `[i, n)` where `p` holds, if there is one. */
  function FindFirst(p: int -> bool, i: int, n: int): (r: Option<int>)
    requires i <= n
    ensures r.None? <==> forall k :: i <= k < n ==> !p(k)
    ensures r.Some? ==> FirstFrom(p, i, n, r.value)
    decreases n - i
  {
    if i == n then None
    else if p(i) then Some(i)
    else FindFirst(p, i + 1, n)
  }

  /** `s.match(/(\d+)\s*(person|bed)/i)` searched from index `i`: the capture of the leftmost match. */
  function SearchFrom(s: string, i: nat): (r: Option<nat>)
    requires i <= |s|
    ensures r.None? <==> forall k :: i <= k < |s| ==> !MatchAt(s, k)
    ensures r.Some? ==> exists k :: LeftmostFrom(s, i, k) && r.value == MatchValue(s, k)
  {
    var p := (k: int) => MatchAt(s, k);
    assert forall k :: p(k) == MatchAt(s, k);
    match FindFirst(p, i, |s|)
    case None => None
    case Some(k) =>
      assert LeftmostFrom(s, i, k);
      Some(MatchValue(s, k))
  }

  // ------------------------------------------------ the classifier

  /** The capacity the name alone gives: its digits, or the first keyword it contains. */
  function NameCapacity(name: string): (r: Option<nat>)
    ensures r.None? <==> NameSilent(name)
    ensures name != "" && AllDigits(name) ==> r == Some(DecimalValue(name))
  {
    if name == "" then None
    else if AllDigits(name) then Some(DecimalValue(name))
    else FirstKeyword(Lower(name), KEYWORDS)
  }

  /** The name gives no capacity: it is empty, or neither all digits nor holding a keyword. */
  predicate NameSilent(name: string) {
    name == "" || (!AllDigits(name) && forall k :: 0 <= k < |KEYWORDS| ==> !Contains(Lower(name), KEYWORDS[k].0))
  }

  /** `getCapacityFromRoomTypeName(name, description)` */
  function CapacityFromRoomType(name: string, description: string): (r: nat)
    ensures name != "" && AllDigits(name) ==> r == DecimalValue(name)
    ensures name != "" && !AllDigits(name) ==>
      forall k :: FirstHit(Lower(name), KEYWORDS, k) ==> r == KEYWORDS[k].1
    ensures NameSilent(name) ==>
      forall k :: LeftmostFrom(description, 0, k) ==> r == MatchValue(description, k)
    ensures NameSilent(name) && (forall k :: 0 <= k < |description| ==> !MatchAt(description, k)) ==> r == 0
  {
    var fromName := NameCapacity(name);
    if fromName.Some? then fromName.value
    else if description != "" then SearchFrom(description, 0).GetOr(0)
    else 0
  }
}

=== FILE: fix_capacities.dfy ===
/**
 * The one-off repair script `fix_room_capacities.ts`: every room whose
 * capacity is 0 or NULL gets a capacity guessed from its room type's name.
 * Its heuristic is older than the room controller's classifier: different
 * keywords in a different order, a search for the first number anywhere in
 * the name, and a default of 1.
 */
module FixRoomCapacities {
  import opened Wrappers
  import opened Js
  import opened RoomTables
  import opened RoomCapacity

  /** `k` is the first index at or after `i` holding a digit. */
  predicate FirstDigitAt(s: string, i: int, k: int) {
    0 <= i <= k < |s| && IsDigit(s[k]) && forall j :: i <= j < k ==> !IsDigit(s[j])
  }

  /** `s.match(/(\d+)/)` searched from index `i`: the value of the first run of digits. */
  function FirstNumber(s: string, i: nat): (r: Option<nat>)
    requires i <= |s|
    ensures r.None? <==> forall k :: i <= k < |s| ==> !IsDigit(s[k])
    ensures r.Some? ==> exists k :: FirstDigitAt(s, i, k) && r.value == DecimalValue(s[k..DigitRunEnd(s, k)])
  {
    var p := (k: int) => 0 <= k < |s| && IsDigit(s[k]);
    assert forall k :: 0 <= k < |s| ==> p(k) == IsDigit(s[k]);
    match FindFirst(p, i, |s|)
    case None => None
    case Some(k) =>
      assert FirstDigitAt(s, i, k);
      Some(DecimalValue(s[k..DigitRunEnd(s, k)]))
  }

  lemma FirstDigitUnique(s: string, k1: int, k2: int)
    requires FirstDigitAt(s, 0, k1) && FirstDigitAt(s, 0, k2)
    ensures k1 == k2
  {
  }

  /**
   * The script's capacity heuristic for a room type name: one of its words'
   * capacities, else the first number in the name, else 1.
   */
  function LegacyCapacity(name: string): (cap: nat)
    ensures Contains(Lower(name), "double") ==> cap == 2
    ensures cap in {1, 2, 3, 4, 5, 6, 10} || FirstNumber(name, 0) == Some(cap)
    ensures FirstNumber(name, 0).None? ==> cap in {1, 2, 3, 4, 5, 6, 10}
  {
    var lower := Lower(name);
    if Contains(lower, "double") then 2
    else if Contains(lower, "triple") then 3
    else if Contains(lower, "four") then 4
    else if Contains(lower, "five") then 5
    else if Contains(lower, "six") then 6
    else if Contains(lower, "ten") || Contains(lower, "dorm") then 10
    else FirstNumber(name, 0).GetOr(1)
  }

  /** The words the heuristic looks for, each with the capacity it gives, in the order it tries them. */
  const LEGACY_WORDS: seq<(string, nat)> := [
    ("double", 2), ("triple", 3), ("four", 4), ("five", 5), ("six", 6), ("ten", 10), ("dorm", 10)
  ]

  /** The first of the script's words found in the lower-cased name decides the capacity. */
  lemma LegacyFirstWordDecides(name: string, k: int)
    requires FirstHit(Lower(name), LEGACY_WORDS, k)
    ensures LegacyCapacity(name) == LEGACY_WORDS[k].1
  {
    var lower := Lower(name);
    if k == 0 {
    } else if k == 1 {
      assert !Contains(lower, LEGACY_WORDS[0].0);
    } else if k == 2 {
      assert !Contains(lower, LEGACY_WORDS[0].0) && !Contains(lower, LEGACY_WORDS[1].0);
    } else if k == 3 {
      assert !Contains(lower, LEGACY_WORDS[0].0) && !Contains(lower, LEGACY_WORDS[1].0);
      assert !Contains(lower, LEGACY_WORDS[2].0);
    } else if k == 4 {
      assert !Contains(lower, LEGACY_WORDS[0].0) && !Contains(lower, LEGACY_WORDS[1].0);
      assert !Contains(lower, LEGACY_WORDS[2].0) && !Contains(lower, LEGACY_WORDS[3].0);
    } else {
      assert !Contains(lower, LEGACY_WORDS[0].0) && !Contains(lower, LEGACY_WORDS[1].0);
      assert !Contains(lower, LEGACY_WORDS[2].0) && !Contains(lower, LEGACY_WORDS[3].0);
      assert !Contains(lower, LEGACY_WORDS[4].0);
    }
  }

  /**
   * Only when none of the script's words occurs is the name searched for a
   * number: the first run of digits anywhere in it, or 1 when it has none.
   */
  lemma LegacyNumberFallback(name: string)
    requires forall k :: 0 <= k < |LEGACY_WORDS| ==> !Contains(Lower(name), LEGACY_WORDS[k].0)
    ensures forall k :: FirstDigitAt(name, 0, k) ==> LegacyCapacity(name) == DecimalValue(name[k..DigitRunEnd(name, k)])
  {
    LegacyWithoutWords(name);
    FirstNumberOfFirstRun(name);
  }

  /** A name with none of the script's words and no digit gets the default of 1. */
  lemma LegacyDefault(name: string)
    requires forall k :: 0 <= k < |LEGACY_WORDS| ==> !Contains(Lower(name), LEGACY_WORDS[k].0)
    ensures (forall k :: 0 <= k < |name| ==> !IsDigit(name[k])) ==> LegacyCapacity(name) == 1
  {
    LegacyWithoutWords(name);
  }

  lemma LegacyWithoutWords(name: string)
    requires forall k :: 0 <= k < |LEGACY_WORDS| ==> !Contains(Lower(name), LEGACY_WORDS[k].0)
    ensures LegacyCapacity(name) == FirstNumber(name, 0).GetOr(1)
  {
    var lower := Lower(name);
    assert !Contains(lower, LEGACY_WORDS[0].0) && !Contains(lower, LEGACY_WORDS[1].0);
    assert !Contains(lower, LEGACY_WORDS[2].0) && !Contains(lower, LEGACY_WORDS[3].0);
    assert !Contains(lower, LEGACY_WORDS[4].0) && !Contains(lower, LEGACY_WORDS[5].0);
    assert !Contains(lower, LEGACY_WORDS[6].0);
  }

  lemma FirstNumberOfFirstRun(s: string)
    ensures forall k :: FirstDigitAt(s, 0, k) ==> FirstNumber(s, 0) == Some(DecimalValue(s[k..DigitRunEnd(s, k)]))
  {
    var r := FirstNumber(s, 0);
    if r.Some? {
      var k0 :| FirstDigitAt(s, 0, k0) && r.value == DecimalValue(s[k0..DigitRunEnd(s, k0)]);
      forall k | FirstDigitAt(s, 0, k) ensures k == k0 {
        FirstDigitUnique(s, k, k0);
      }
    }
  }

  // ------------------------------------------------ agreement with the controller's classifier

  lemma NoLetterWordInDigits(s: string, w: string)
    requires AllDigits(s) && |w| > 0 && !IsDigit(w[0])
    ensures !Contains(s, w)
  {
    forall i | 0 <= i <= |s| - |w| ensures !OccursAt(s, w, i) {
      assert s[i..i + |w|][0] == s[i];
    }
  }

  lemma LowerOfDigits(s: string)
    requires AllDigits(s)
    ensures Lower(s) == s
  {
  }

  /** On a name made only of digits both heuristics read the number. */
  lemma ClassifiersAgreeOnDigitNames(name: string, description: string)
    requires name != "" && AllDigits(name)
    ensures LegacyCapacity(name) == CapacityFromRoomType(name, description) == DecimalValue(name)
  {
    LowerOfDigits(name);
    forall k | 0 <= k < |LEGACY_WORDS| ensures !Contains(name, LEGACY_WORDS[k].0) {
      NoLetterWordInDigits(name, LEGACY_WORDS[k].0);
    }
    assert DigitRunEnd(name, 0) == |name| by {
      DigitRunCovers(name, 0, |name|);
    }
    assert FirstDigitAt(name, 0, 0);
    LegacyNumberFallback(name);
    assert name[0..|name|] == name;
  }

  lemma OccursAtStart(s: string, w: string)
    requires |w| <= |s| && s[..|w|] == w
    ensures Contains(s, w)
  {
    assert OccursAt(s, w, 0);
  }

  /**
   * When the controller's classifier picks a keyword other than "single"
   * and the name holds none of the script's words for a different capacity,
   * the script guesses the same capacity.
   */
  lemma ClassifiersAgreeOnKeyword(name: string, description: string, k: int)
    requires name != "" && !AllDigits(name)
    requires 1 <= k && FirstHit(Lower(name), KEYWORDS, k)
    requires forall j :: 0 <= j < |LEGACY_WORDS| && LEGACY_WORDS[j].1 != KEYWORDS[k].1 ==>
      !Contains(Lower(name), LEGACY_WORDS[j].0)
    ensures LegacyCapacity(name) == CapacityFromRoomType(name, description) == KEYWORDS[k].1
  {
    var lower := Lower(name);
    // the legacy word the keyword contains, and where it sits in the script's list
    var j := if k <= 5 then k - 1 else 6;
    assert LEGACY_WORDS[j].1 == KEYWORDS[k].1;
    OccursAtStart(KEYWORDS[k].0, LEGACY_WORDS[j].0);
    ContainsTransitive(lower, KEYWORDS[k].0, LEGACY_WORDS[j].0);
    if j == 6 && Contains(lower, LEGACY_WORDS[5].0) {
      assert FirstHit(lower, LEGACY_WORDS, 5);
      LegacyFirstWordDecides(name, 5);
    } else {
      assert FirstHit(lower, LEGACY_WORDS, j);
      LegacyFirstWordDecides(name, j);
    }
  }

  /**
   * Where the heuristics part: the script finds "ten" inside words such as
   * "tent" or "extended", and the controller has no such rule, so a room
   * type named "Tent" gets 10 beds from the script and none from the controller.
   */
  lemma ClassifiersDisagreeOnTent()
    ensures LegacyCapacity("Tent") == 10
    ensures CapacityFromRoomType("Tent", "") == 0
  {
    LegacyReadsTenInTent();
    ControllerSilentOnTent();
  }

  lemma LegacyReadsTenInTent()
    ensures LegacyCapacity("Tent") == 10
  {
    TentHitsTen();
    LegacyFirstWordDecides("Tent", 5);
  }

  /** Of the script's words, "ten" is the first found in "tent". */
  lemma TentHitsTen()
    ensures FirstHit(Lower("Tent"), LEGACY_WORDS, 5)
  {
    var lower := Lower("Tent");
    assert lower[0] == 't' && lower[1] == 'e' && lower[2] == 'n' && lower[3] == 't';
    assert lower[0..3] == "ten";
    assert OccursAt(lower, "ten", 0);
    NotOccursAt(lower, "four", 0);
    NotOccursAt(lower, "five", 0);
    NotOccursAt(lower, "six", 0);
    NotOccursAt(lower, "six", 1);
  }

  /** A word does not occur where its first letter is missing. */
  lemma NotOccursAt(s: string, w: string, i: int)
    requires 0 <= i < |s| && |w| > 0 && s[i] != w[0]
    ensures !OccursAt(s, w, i)
  {
  }

  lemma ControllerSilentOnTent()
    ensures CapacityFromRoomType("Tent", "") == 0
  {
    assert |Lower("Tent")| == 4;
    assert forall k :: 0 <= k < |KEYWORDS| ==> |KEYWORDS[k].0| > 4;
    assert !IsDigit("Tent"[0]);
    assert NameSilent("Tent");
  }

  // ------------------------------------------------ the cleanup loop

  /** `where('capacity', 0).orWhereNull('capacity')` */
  predicate NeedsCapacity(room: Room) {
    room.capacity.None? || room.capacity == Some(0)
  }

  /** The row `cleanup` leaves in place of `room`. */
  function Repaired(room: Room, types: seq<RoomType>): (r: Room)
    ensures r == room.(capacity := r.capacity)
    ensures NeedsCapacity(room) && FindRoomType(types, room.roomTypeId).Some? ==>
      r.capacity == Some(LegacyCapacity(FindRoomType(types, room.roomTypeId).value.name))
    ensures !NeedsCapacity(room) || FindRoomType(types, room.roomTypeId).None? ==> r == room
  {
    if NeedsCapacity(room) then
      match FindRoomType(types, room.roomTypeId)
      case Some(t) => room.(capacity := Some(LegacyCapacity(t.name)))
      case None => room
    else room
  }

  /** `db('rooms').where('room_id', id).update({ capacity })` */
  function SetCapacity(rooms: seq<Room>, id: int, capacity: int): (r: seq<Room>)
    ensures |r| == |rooms|
    ensures forall i :: 0 <= i < |rooms| && rooms[i].roomId == id ==> r[i] == rooms[i].(capacity := Some(capacity))
    ensures forall i :: 0 <= i < |rooms| && rooms[i].roomId != id ==> r[i] == rooms[i]
  {
    seq(|rooms|, i requires 0 <= i < |rooms| =>
      if rooms[i].roomId == id then rooms[i].(capacity := Some(capacity)) else rooms[i])
  }

  /**
   * `cleanup`: walk the rooms selected up front and write the guessed
   * capacity into each one whose room type exists; a room whose type is
   * missing is skipped.
   */
  method Cleanup(rooms: seq<Room>, types: seq<RoomType>) returns (result: seq<Room>)
    requires UniqueRoomIds(rooms)
    ensures |result| == |rooms|
    ensures forall i :: 0 <= i < |rooms| ==> result[i] == Repaired(rooms[i], types)
    ensures forall i :: 0 <= i < |rooms| ==> result[i] == rooms[i].(capacity := result[i].capacity)
    ensures forall i :: 0 <= i < |rooms| && !NeedsCapacity(rooms[i]) ==> result[i] == rooms[i]
    ensures forall i :: 0 <= i < |rooms| && FindRoomType(types, rooms[i].roomTypeId).None? ==> result[i] == rooms[i]
  {
    result := rooms;
    var k := 0;
    while k < |rooms|
      invariant 0 <= k <= |rooms|
      invariant |result| == |rooms|
      invariant forall i :: 0 <= i < k ==> result[i] == Repaired(rooms[i], types)
      invariant forall i :: k <= i < |rooms| ==> result[i] == rooms[i]
    {
      var room := rooms[k];
      if NeedsCapacity(room) {
        var rtype := FindRoomType(types, room.roomTypeId);
        if rtype.Some? {
          result := SetCapacity(result, room.roomId, LegacyCapacity(rtype.value.name));
        }
      }
      k := k + 1;
    }
  }
}

=== FILE: http.dfy ===
/**
 * What the handlers share: the payload of a verified access token (the
 * caller's identity and role), and the JSON reply a handler sends.
 */
module Http {
  import opened Wrappers

  /** Role 1 administers every hostel. */
  const ADMIN_ROLE := 1
  /** Role 2 owns one hostel, named by the token's `hostel_id`. */
  const OWNER_ROLE := 2

  /** The claims of a verified access token, which become `req.user`. */
  datatype TokenPayload = TokenPayload(userId: int, email: string, roleId: int, hostelId: Option<int>)

  /** `user?.role_id === role`, where `req.user` may be unset. */
  predicate HasRole(user: Option<TokenPayload>, role: int) {
    user.Some? && user.value.roleId == role
  }

  /** The token's hostel when it is truthy; an owner with none is "not linked to any hostel". */
  function LinkedHostel(user: TokenPayload): (h: Option<int>)
    ensures h.Some? <==> user.hostelId.Some? && user.hostelId.value != 0
    ensures h.Some? ==> h == user.hostelId
  {
    if user.hostelId.Some? && user.hostelId.value != 0 then user.hostelId else None
  }

  /** A JSON reply: a success status with its payload, or an error status with `{ success: false, error }`. */
  datatype Reply<T> = Ok(status: int, value: T) | Fail(status: int, error: string)

  /** What a writing handler leaves behind: its reply and the table after the request. */
  datatype Effect<T, R> = Effect(reply: Reply<T>, rows: seq<R>)
}

=== FILE: income.dfy ===
/**
 * The income handlers of `incomeController.ts`: listing and summarising a
 * hostel's other income, and recording, editing and deleting income rows.
 *
 * A hostel owner (role 2) is confined to the hostel named in the token and
 * is refused when the token names none; every other role sees all hostels.
 * Amounts are whole numbers, dates are the `YYYY-MM-DD` text the table
 * stores, and `now` is the caller's clock reading.
 */
module Incomes {
  import opened Wrappers
  import opened Js
  import opened Http
  import opened Sql

  const NOT_LINKED := "Your account is not linked to any hostel."
  const MISSING_FIELDS := "Missing required fields"
  const ADMIN_NEEDS_HOSTEL := "hostel_id is required for admin users"
  const INCOME_NOT_FOUND := "Income record not found"
  const RECORDED := "Income recorded successfully"
  const UPDATED := "Income updated successfully"
  const DELETED := "Income deleted successfully"

  /** A row of the `income` table. */
  datatype Income = Income(
    incomeId: int,
    hostelId: int,
    incomeDate: Option<string>,
    amount: Option<int>,
    source: Option<string>,
    paymentModeId: Option<int>,
    receiptNumber: Option<string>,
    description: Option<string>,
    updatedAt: Option<int>)

  // ------------------------------------------------ scoping

  /**
   * The hostel a caller's queries are confined to: `Some(h)` for an owner
   * linked to hostel `h`, `None` (no filter) for everyone else, and a 403
   * for an owner linked to none.
   */
  function Scope(user: Option<TokenPayload>): (r: Reply<Option<int>>)
    ensures r.Fail? <==> HasRole(user, OWNER_ROLE) && LinkedHostel(user.value).None?
    ensures r.Fail? ==> r == Fail(403, NOT_LINKED)
    ensures r.Ok? ==> (r.value.Some? <==> HasRole(user, OWNER_ROLE))
    ensures r.Ok? && r.value.Some? ==> r.value == user.value.hostelId && r.value.value != 0
  {
    if !HasRole(user, OWNER_ROLE) then Ok(200, None)
    else
      match LinkedHostel(user.value)
      case Some(h) => Ok(200, Some(h))
      case None => Fail(403, NOT_LINKED)
  }

  predicate InScope(scope: Option<int>, row: Income) {
    scope.None? || row.hostelId == scope.value
  }

  /** The `startDate`/`endDate` query: both must be non-empty for the date filter to apply. */
  predicate InDates(startDate: Option<string>, endDate: Option<string>, row: Income) {
    TruthyText(startDate) && TruthyText(endDate) ==> Between(row.incomeDate, startDate.value, endDate.value)
  }

  function SelectIncome(rows: seq<Income>, scope: Option<int>, startDate: Option<string>, endDate: Option<string>)
    : (r: seq<Income>)
    ensures forall x :: x in r <==> x in rows && InScope(scope, x) && InDates(startDate, endDate, x)
    ensures |r| <= |rows|
  {
    if |rows| == 0 then []
    else
      var rest := SelectIncome(rows[1..], scope, startDate, endDate);
      assert forall x :: x in rows <==> x == rows[0] || x in rows[1..];
      if InScope(scope, rows[0]) && InDates(startDate, endDate, rows[0]) then [rows[0]] + rest else rest
  }

  lemma {:induction false} SelectIncomeAppend(rows: seq<Income>, extra: seq<Income>, scope: Option<int>,
                                              startDate: Option<string>, endDate: Option<string>)
    ensures SelectIncome(rows + extra, scope, startDate, endDate)
         == SelectIncome(rows, scope, startDate, endDate) + SelectIncome(extra, scope, startDate, endDate)
    decreases |rows|
  {
    if |rows| == 0 {
      assert rows + extra == extra;
    } else {
      assert (rows + extra)[1..] == rows[1..] + extra;
      SelectIncomeAppend(rows[1..], extra, scope, startDate, endDate);
    }
  }

  lemma {:induction false} SelectIncomeOutOfScope(rows: seq<Income>, scope: Option<int>,
                                                  startDate: Option<string>, endDate: Option<string>)
    requires forall i :: 0 <= i < |rows| ==> !InScope(scope, rows[i])
    ensures SelectIncome(rows, scope, startDate, endDate) == []
    decreases |rows|
  {
    if |rows| > 0 {
      SelectIncomeOutOfScope(rows[1..], scope, startDate, endDate);
    }
  }

  /**
   * `getAllIncome`: the caller's rows, restricted to the date range when
   * both ends are given. The `income_date DESC` order is not modelled.
   */
  function GetAllIncome(rows: seq<Income>, user: Option<TokenPayload>, startDate: Option<string>, endDate: Option<string>)
    : (r: Reply<seq<Income>>)
    ensures r.Fail? <==> HasRole(user, OWNER_ROLE) && LinkedHostel(user.value).None?
    ensures r.Fail? ==> r == Fail(403, NOT_LINKED)
    ensures r.Ok? ==> r.status == 200
    ensures r.Ok? && HasRole(user, OWNER_ROLE) ==> forall x :: x in r.value ==> user.value.hostelId == Some(x.hostelId)
    ensures r.Ok? && !HasRole(user, OWNER_ROLE) ==>
      forall x :: x in r.value <==> x in rows && InDates(startDate, endDate, x)
    ensures r.Ok? && HasRole(user, OWNER_ROLE) ==>
      forall x :: x in r.value <==> x in rows && user.value.hostelId == Some(x.hostelId) && InDates(startDate, endDate, x)
  {
    match Scope(user)
    case Fail(status, error) => Fail(status, error)
    case Ok(_, scope) => Ok(200, SelectIncome(rows, scope, startDate, endDate))
  }

  /** An owner's income list does not change when rows of other hostels are added. */
  lemma OwnerIncomeIgnoresOtherHostels(rows: seq<Income>, others: seq<Income>, user: Option<TokenPayload>,
                                       startDate: Option<string>, endDate: Option<string>)
    requires HasRole(user, OWNER_ROLE)
    requires forall i :: 0 <= i < |others| ==> user.value.hostelId != Some(others[i].hostelId)
    ensures GetAllIncome(rows + others, user, startDate, endDate) == GetAllIncome(rows, user, startDate, endDate)
  {
    var scope := Scope(user);
    if scope.Ok? {
      SelectIncomeAppend(rows, others, scope.value, startDate, endDate);
      SelectIncomeOutOfScope(others, scope.value, startDate, endDate);
      assert SelectIncome(rows, scope.value, startDate, endDate) + [] == SelectIncome(rows, scope.value, startDate, endDate);
    }
  }

  /** A date range whose start sorts after its end lists nothing. */
  lemma ReversedRangeListsNothing(rows: seq<Income>, user: Option<TokenPayload>, startDate: string, endDate: string)
    requires startDate != "" && endDate != "" && !TextLe(startDate, endDate)
    ensures GetAllIncome(rows, user, Some(startDate), Some(endDate)).Ok? ==>
      GetAllIncome(rows, user, Some(startDate), Some(endDate)).value == []
  {
    var r := GetAllIncome(rows, user, Some(startDate), Some(endDate));
    if r.Ok? && r.value != [] {
      var x := r.value[0];
      assert x in r.value;
      EmptyRange(x.incomeDate, startDate, endDate);
    }
  }

  // ------------------------------------------------ the summary by source

  /** One line of `getIncomeSummary`: `source`, `SUM(amount)` (NULL when no amount is present) and `COUNT(*)`. */
  datatype SourceTotal = SourceTotal(source: Option<string>, totalAmount: Option<int>, count: int)

  /** The distinct `source` values of `rows`, NULL being one group of its own. */
  function Sources(rows: seq<Income>): (r: seq<Option<string>>)
    ensures forall i, j :: 0 <= i < j < |r| ==> r[i] != r[j]
    ensures forall s :: s in r <==> exists x :: x in rows && x.source == s
  {
    if |rows| == 0 then []
    else
      var rest := Sources(rows[1..]);
      assert forall x :: x in rows <==> x == rows[0] || x in rows[1..];
      if rows[0].source in rest then rest else [rows[0].source] + rest
  }

  /** The sum of `w` over the rows of group `s`. */
  function GroupWeight(rows: seq<Income>, s: Option<string>, w: Income -> int): int {
    if |rows| == 0 then 0
    else (if rows[0].source == s then w(rows[0]) else 0) + GroupWeight(rows[1..], s, w)
  }

  /** The sum of `w` over all rows. */
  function TotalWeight(rows: seq<Income>, w: Income -> int): int {
    if |rows| == 0 then 0 else w(rows[0]) + TotalWeight(rows[1..], w)
  }

  /** The sum over `groups` of each group's weight. */
  function SumOverGroups(rows: seq<Income>, groups: seq<Option<string>>, w: Income -> int): int {
    if |groups| == 0 then 0 else GroupWeight(rows, groups[0], w) + SumOverGroups(rows, groups[1..], w)
  }

  /** The contribution of one row of source `x` and weight `v` to the groups. */
  function Hit(groups: seq<Option<string>>, x: Option<string>, v: int): int {
    if |groups| == 0 then 0 else (if groups[0] == x then v else 0) + Hit(groups[1..], x, v)
  }

  lemma {:induction false} HitDistinct(groups: seq<Option<string>>, x: Option<string>, v: int)
    requires forall i, j :: 0 <= i < j < |groups| ==> groups[i] != groups[j]
    ensures Hit(groups, x, v) == if x in groups then v else 0
    decreases |groups|
  {
    if |groups| > 0 {
      HitDistinct(groups[1..], x, v);
      assert groups[0] == x ==> x !in groups[1..];
      assert x in groups <==> groups[0] == x || x in groups[1..];
    }
  }

  lemma {:induction false} SumOverGroupsStep(rows: seq<Income>, groups: seq<Option<string>>, w: Income -> int)
    requires |rows| > 0
    ensures SumOverGroups(rows, groups, w) == Hit(groups, rows[0].source, w(rows[0])) + SumOverGroups(rows[1..], groups, w)
    decreases |groups|
  {
    if |groups| > 0 {
      SumOverGroupsStep(rows, groups[1..], w);
    }
  }

  /** Grouping by source neither loses nor double-counts a row: the groups' weights add up to the total. */
  lemma {:induction false} GroupsPartition(rows: seq<Income>, groups: seq<Option<string>>, w: Income -> int)
    requires forall i, j :: 0 <= i < j < |groups| ==> groups[i] != groups[j]
    requires forall x :: x in rows ==> x.source in groups
    ensures SumOverGroups(rows, groups, w) == TotalWeight(rows, w)
    decreases |rows|
  {
    if |rows| == 0 {
      EmptyGroups(groups, w);
    } else {
      SumOverGroupsStep(rows, groups, w);
      HitDistinct(groups, rows[0].source, w(rows[0]));
      GroupsPartition(rows[1..], groups, w);
    }
  }

  lemma {:induction false} EmptyGroups(groups: seq<Option<string>>, w: Income -> int)
    ensures SumOverGroups([], groups, w) == 0
    decreases |groups|
  {
    if |groups| > 0 {
      EmptyGroups(groups[1..], w);
    }
  }

  function One(x: Income): int {
    1
  }

  /** An amount as `SUM` adds it: NULL contributes nothing. */
  function AmountOrZero(x: Income): int {
    x.amount.GetOr(0)
  }

  /** Some row of group `s` has a non-NULL amount. */
  predicate AnyAmount(rows: seq<Income>, s: Option<string>) {
    exists x :: x in rows && x.source == s && x.amount.Some?
  }

  lemma {:induction false} NoAmountWeighsNothing(rows: seq<Income>, s: Option<string>)
    requires !AnyAmount(rows, s)
    ensures GroupWeight(rows, s, AmountOrZero) == 0
    decreases |rows|
  {
    if |rows| > 0 {
      assert rows[0] in rows;
      assert !AnyAmount(rows[1..], s) by {
        forall x | x in rows[1..] ensures !(x.source == s && x.amount.Some?) {
          assert x in rows;
        }
      }
      NoAmountWeighsNothing(rows[1..], s);
    }
  }

  /** The summary line of group `s`. */
  function GroupLine(rows: seq<Income>, s: Option<string>): (line: SourceTotal)
    ensures line.source == s
    ensures line.count == GroupWeight(rows, s, One)
    ensures line.totalAmount.GetOr(0) == GroupWeight(rows, s, AmountOrZero)
    ensures line.totalAmount.None? <==> !AnyAmount(rows, s)
  {
    if AnyAmount(rows, s) then SourceTotal(s, Some(GroupWeight(rows, s, AmountOrZero)), GroupWeight(rows, s, One))
    else
      NoAmountWeighsNothing(rows, s);
      SourceTotal(s, None, GroupWeight(rows, s, One))
  }

  function Summarise(rows: seq<Income>): (r: seq<SourceTotal>)
    ensures |r| == |Sources(rows)|
    ensures forall i :: 0 <= i < |r| ==> r[i] == GroupLine(rows, Sources(rows)[i])
  {
    var groups := Sources(rows);
    seq(|groups|, i requires 0 <= i < |groups| => GroupLine(rows, groups[i]))
  }

  /** The counts of the summary lines. */
  function CountSum(lines: seq<SourceTotal>): int {
    if |lines| == 0 then 0 else lines[0].count + CountSum(lines[1..])
  }

  /** The totals of the summary lines, NULL counting as 0. */
  function TotalSum(lines: seq<SourceTotal>): int {
    if |lines| == 0 then 0 else lines[0].totalAmount.GetOr(0) + TotalSum(lines[1..])
  }

  lemma {:induction false} LineSums(rows: seq<Income>, groups: seq<Option<string>>)
    ensures CountSum(seq(|groups|, i requires 0 <= i < |groups| => GroupLine(rows, groups[i]))) == SumOverGroups(rows, groups, One)
    ensures TotalSum(seq(|groups|, i requires 0 <= i < |groups| => GroupLine(rows, groups[i]))) == SumOverGroups(rows, groups, AmountOrZero)
    decreases |groups|
  {
    if |groups| > 0 {
      var lines := seq(|groups|, i requires 0 <= i < |groups| => GroupLine(rows, groups[i]));
      var rest := seq(|groups[1..]|, i requires 0 <= i < |groups[1..]| => GroupLine(rows, groups[1..][i]));
      assert lines[1..] == rest;
      LineSums(rows, groups[1..]);
    }
  }

  /** `getIncomeSummary`: one line per source among the caller's rows. The `total_amount DESC` order is not modelled. */
  function GetIncomeSummary(rows: seq<Income>, user: Option<TokenPayload>): (r: Reply<seq<SourceTotal>>)
    ensures r.Fail? <==> HasRole(user, OWNER_ROLE) && LinkedHostel(user.value).None?
    ensures r.Fail? ==> r == Fail(403, NOT_LINKED)
    ensures r.Ok? ==> r.status == 200
    ensures r.Ok? ==> forall i, j :: 0 <= i < j < |r.value| ==> r.value[i].source != r.value[j].source
    ensures r.Ok? ==> r.value == Summarise(SelectIncome(rows, Scope(user).value, None, None))
    ensures r.Ok? ==> forall i :: 0 <= i < |r.value| ==>
      r.value[i] == GroupLine(SelectIncome(rows, Scope(user).value, None, None), r.value[i].source)
    ensures r.Ok? ==> forall x :: x in SelectIncome(rows, Scope(user).value, None, None) ==>
      exists i :: 0 <= i < |r.value| && r.value[i].source == x.source
  {
    match Scope(user)
    case Fail(status, error) => Fail(status, error)
    case Ok(_, scope) =>
      SummariseCoversSources(SelectIncome(rows, scope, None, None));
      Ok(200, Summarise(SelectIncome(rows, scope, None, None)))
  }

  /**
   * `lines` accounts for every row of `rows` exactly once: their sources
   * are exactly the rows', the counts add up to the number of rows, and the
   * totals add up to the sum of their amounts.
   */
  predicate AccountsFor(lines: seq<SourceTotal>, rows: seq<Income>) {
    (forall x :: x in rows ==> exists i :: 0 <= i < |lines| && lines[i].source == x.source)
    && (forall i :: 0 <= i < |lines| ==> exists x :: x in rows && x.source == lines[i].source)
    && CountSum(lines) == |rows|
    && TotalSum(lines) == TotalWeight(rows, AmountOrZero)
  }

  /** The summary accounts for every row the caller may see. */
  lemma SummaryAccountsForEveryRow(rows: seq<Income>, user: Option<TokenPayload>)
    requires GetIncomeSummary(rows, user).Ok?
    ensures AccountsFor(GetIncomeSummary(rows, user).value, SelectIncome(rows, Scope(user).value, None, None))
  {
    var visible := SelectIncome(rows, Scope(user).value, None, None);
    SummariseAccountsFor(visible);
  }

  lemma SummariseAccountsFor(rows: seq<Income>)
    ensures AccountsFor(Summarise(rows), rows)
  {
    SummariseCoversSources(rows);
    SummariseAddsUp(rows);
  }

  /** Every source of `rows` has a line, and every line is the source of some row. */
  lemma SummariseCoversSources(rows: seq<Income>)
    ensures forall x :: x in rows ==> exists i :: 0 <= i < |Summarise(rows)| && Summarise(rows)[i].source == x.source
    ensures forall i :: 0 <= i < |Summarise(rows)| ==> exists x :: x in rows && x.source == Summarise(rows)[i].source
  {
    var groups := Sources(rows);
    var lines := Summarise(rows);
    forall x | x in rows ensures exists i :: 0 <= i < |lines| && lines[i].source == x.source {
      assert x.source in groups;
      var i :| 0 <= i < |groups| && groups[i] == x.source;
      assert lines[i].source == x.source;
    }
    forall i | 0 <= i < |lines| ensures exists x :: x in rows && x.source == lines[i].source {
      assert groups[i] in groups;
    }
  }

  /** The lines' counts add up to the number of rows and their totals to the sum of the amounts. */
  lemma SummariseAddsUp(rows: seq<Income>)
    ensures CountSum(Summarise(rows)) == |rows|
    ensures TotalSum(Summarise(rows)) == TotalWeight(rows, AmountOrZero)
  {
    var groups := Sources(rows);
    assert Summarise(rows) == seq(|groups|, i requires 0 <= i < |groups| => GroupLine(rows, groups[i]));
    LineSums(rows, groups);
    GroupsPartition(rows, groups, One);
    GroupsPartition(rows, groups, AmountOrZero);
    CountIsLength(rows);
  }

  lemma {:induction false} CountIsLength(rows: seq<Income>)
    ensures TotalWeight(rows, One) == |rows|
    decreases |rows|
  {
    if |rows| > 0 {
      CountIsLength(rows[1..]);
    }
  }

  // ------------------------------------------------ recording

  /** The properties of a `createIncome` request body. */
  datatype IncomeBody = IncomeBody(
    incomeDate: Field<string>,
    amount: Field<int>,
    source: Field<string>,
    paymentModeId: Field<int>,
    receiptNumber: Field<string>,
    description: Field<string>,
    hostelId: Field<Scalar>)

  /** `income_date`, `amount`, `source` and `payment_mode_id` are all truthy; an amount of 0 is missing. */
  predicate HasRequiredFields(body: IncomeBody) {
    TruthyStr(body.incomeDate) && TruthyInt(body.amount) && TruthyStr(body.source) && TruthyInt(body.paymentModeId)
  }

  /** `parseInt(req.body.hostel_id)` when it is a non-zero number; NaN and 0 are refused. */
  function AdminHostel(hostelId: Field<Scalar>): (h: Option<int>)
    ensures h.Some? ==> h.value != 0
  {
    match ParseInt(ScalarString(hostelId))
    case Some(n) => if n != 0 then Some(n) else None
    case None => None
  }

  /** A numeric `hostel_id` is taken as it is, and a missing or null one is refused. */
  lemma AdminHostelReadsNumbers(n: PlainInt)
    ensures AdminHostel(Given(Num(n))) == if n != 0 then Some(n) else None
    ensures AdminHostel(Given(Text(IntToString(n)))) == AdminHostel(Given(Num(n)))
  {
    ParseIntOfIntToString(n);
  }

  /** A missing or null `hostel_id` reads as NaN and is refused. */
  lemma AdminHostelRefusesMissing(hostelId: Field<Scalar>)
    requires !hostelId.Given?
    ensures AdminHostel(hostelId) == None
  {
    var s := ScalarString(hostelId);
    assert |s| > 0 && 'a' <= s[0] <= 'z';
    ParseIntOfNonNumeral(s);
  }

  /** The hostel a new income row is recorded for, or why it cannot be. */
  function IncomeTarget(user: Option<TokenPayload>, body: IncomeBody): (r: Reply<int>)
    ensures HasRole(user, OWNER_ROLE) ==>
      r == (if LinkedHostel(user.value).Some? then Ok(200, user.value.hostelId.value) else Fail(403, NOT_LINKED))
    ensures !HasRole(user, OWNER_ROLE) ==>
      r == (if AdminHostel(body.hostelId).Some? then Ok(200, AdminHostel(body.hostelId).value) else Fail(400, ADMIN_NEEDS_HOSTEL))
  {
    if HasRole(user, OWNER_ROLE) then
      match LinkedHostel(user.value)
      case Some(h) => Ok(200, h)
      case None => Fail(403, NOT_LINKED)
    else
      match AdminHostel(body.hostelId)
      case Some(h) => Ok(200, h)
      case None => Fail(400, ADMIN_NEEDS_HOSTEL)
  }

  function NextIncomeId(rows: seq<Income>): (id: int)
    ensures forall i :: 0 <= i < |rows| ==> rows[i].incomeId != id
  {
    NextKey(rows, (x: Income) => x.incomeId)
  }

  /** `createIncome`: the reply carries the new `income_id`. */
  function CreateIncome(rows: seq<Income>, user: Option<TokenPayload>, body: IncomeBody): (e: Effect<int, Income>)
    ensures e.reply.Fail? ==> e.rows == rows
    ensures !HasRequiredFields(body) ==> e.reply == Fail(400, MISSING_FIELDS)
    ensures HasRequiredFields(body) && IncomeTarget(user, body).Fail? ==>
      e.reply == Fail(IncomeTarget(user, body).status, IncomeTarget(user, body).error)
    ensures e.reply.Ok? <==> HasRequiredFields(body) && IncomeTarget(user, body).Ok?
    ensures e.reply.Ok? ==> e.reply.status == 201 && |e.rows| == |rows| + 1 && e.rows[..|rows|] == rows
    ensures e.reply.Ok? ==> var x := e.rows[|rows|];
      x.incomeId == e.reply.value && !HasIncome(rows, x.incomeId)
      && x.hostelId == IncomeTarget(user, body).value && x.hostelId != 0
      && x.incomeDate == Some(body.incomeDate.value) && x.amount == Some(body.amount.value)
      && x.source == Some(body.source.value) && x.paymentModeId == Some(body.paymentModeId.value)
      && x.receiptNumber == OrNull(body.receiptNumber) && x.description == OrNull(body.description)
  {
    if !HasRequiredFields(body) then Effect(Fail(400, MISSING_FIELDS), rows)
    else
      match IncomeTarget(user, body)
      case Fail(status, error) => Effect(Fail(status, error), rows)
      case Ok(_, hostel) =>
        var id := NextIncomeId(rows);
        var row := Income(id, hostel, Some(body.incomeDate.value), Some(body.amount.value), Some(body.source.value),
                          Some(body.paymentModeId.value), OrNull(body.receiptNumber), OrNull(body.description), None);
        assert (rows + [row])[..|rows|] == rows;
        Effect(Ok(201, id), rows + [row])
  }

  /** An owner records income for the token's hostel whatever `hostel_id` the body names. */
  lemma OwnerIncomeIgnoresBodyHostel(rows: seq<Income>, user: Option<TokenPayload>, body: IncomeBody, hostel: Field<Scalar>)
    requires HasRole(user, OWNER_ROLE)
    ensures CreateIncome(rows, user, body) == CreateIncome(rows, user, body.(hostelId := hostel))
  {
  }

  // ------------------------------------------------ editing and deleting

  predicate HasIncome(rows: seq<Income>, incomeId: int) {
    exists i :: 0 <= i < |rows| && rows[i].incomeId == incomeId
  }

  /** `db('income').where('income_id', id).first()` */
  function FindIncome(rows: seq<Income>, incomeId: int): (r: Option<Income>)
    ensures r.Some? <==> HasIncome(rows, incomeId)
    ensures r.Some? ==> r.value in rows && r.value.incomeId == incomeId
  {
    if |rows| == 0 then None
    else if rows[0].incomeId == incomeId then Some(rows[0])
    else
      var r := FindIncome(rows[1..], incomeId);
      assert HasIncome(rows[1..], incomeId) ==> HasIncome(rows, incomeId) by {
        if HasIncome(rows[1..], incomeId) {
          var i :| 0 <= i < |rows[1..]| && rows[1..][i].incomeId == incomeId;
          assert rows[i + 1].incomeId == incomeId;
        }
      }
      r
  }

  /** Why an owner may not change `row`, if they may not; nobody else is checked. */
  function IncomeOwnershipError(user: Option<TokenPayload>, row: Income, verb: string): (r: Option<string>)
    ensures r.None? <==> !HasRole(user, OWNER_ROLE) || (user.value.hostelId == Some(row.hostelId) && row.hostelId != 0)
  {
    if !HasRole(user, OWNER_ROLE) then None
    else if LinkedHostel(user.value).None? then Some(NOT_LINKED)
    else if row.hostelId != user.value.hostelId.value then Some("You can only " + verb + " income for your own hostel.")
    else None
  }

  /** The properties of an `updateIncome` request body. */
  datatype IncomeEdit = IncomeEdit(
    incomeDate: Field<string>,
    amount: Field<int>,
    source: Field<string>,
    paymentModeId: Field<int>,
    receiptNumber: Field<string>,
    description: Field<string>)

  /**
   * The row after `updateIncome` writes `edit` into it. The query builder
   * leaves out properties that are `undefined`, so an omitted date, amount,
   * source or payment mode keeps its value; receipt number and description
   * are always written, as NULL unless truthy.
   */
  function Edited(row: Income, edit: IncomeEdit, now: int): (r: Income)
    ensures r.incomeId == row.incomeId && r.hostelId == row.hostelId
    ensures r.updatedAt == Some(now)
    ensures r.receiptNumber == OrNull(edit.receiptNumber) && r.description == OrNull(edit.description)
    ensures Defined(edit.incomeDate) ==> r.incomeDate == Cell(edit.incomeDate)
    ensures edit.incomeDate.Undefined? ==> r.incomeDate == row.incomeDate
    ensures Defined(edit.amount) ==> r.amount == Cell(edit.amount)
    ensures edit.amount.Undefined? ==> r.amount == row.amount
    ensures Defined(edit.source) ==> r.source == Cell(edit.source)
    ensures edit.source.Undefined? ==> r.source == row.source
    ensures Defined(edit.paymentModeId) ==> r.paymentModeId == Cell(edit.paymentModeId)
    ensures edit.paymentModeId.Undefined? ==> r.paymentModeId == row.paymentModeId
  {
    row.(
      incomeDate := if Defined(edit.incomeDate) then Cell(edit.incomeDate) else row.incomeDate,
      amount := if Defined(edit.amount) then Cell(edit.amount) else row.amount,
      source := if Defined(edit.source) then Cell(edit.source) else row.source,
      paymentModeId := if Defined(edit.paymentModeId) then Cell(edit.paymentModeId) else row.paymentModeId,
      receiptNumber := OrNull(edit.receiptNumber),
      description := OrNull(edit.description),
      updatedAt := Some(now))
  }

  /** A body that sets nothing. */
  const EMPTY_EDIT := IncomeEdit(Undefined, Undefined, Undefined, Undefined, Undefined, Undefined)

  /** An update that names nothing still erases the receipt number and the description. */
  lemma EmptyEditClearsNotes(row: Income, now: int)
    ensures Edited(row, EMPTY_EDIT, now) == row.(receiptNumber := None, description := None, updatedAt := Some(now))
  {
  }

  /** Writing the same edit twice leaves the row as writing it once. */
  lemma EditIdempotent(row: Income, edit: IncomeEdit, now: int)
    ensures Edited(Edited(row, edit, now), edit, now) == Edited(row, edit, now)
  {
  }

  /** `updateIncome` */
  function UpdateIncome(rows: seq<Income>, user: Option<TokenPayload>, incomeId: int, edit: IncomeEdit, now: int)
    : (e: Effect<string, Income>)
    ensures e.reply.Fail? ==> e.rows == rows
    ensures !HasIncome(rows, incomeId) ==> e.reply == Fail(404, INCOME_NOT_FOUND)
    ensures HasIncome(rows, incomeId) && IncomeOwnershipError(user, FindIncome(rows, incomeId).value, "update").Some? ==>
      e.reply == Fail(403, IncomeOwnershipError(user, FindIncome(rows, incomeId).value, "update").value)
    ensures e.reply.Ok? <==>
      HasIncome(rows, incomeId) && IncomeOwnershipError(user, FindIncome(rows, incomeId).value, "update").None?
    ensures e.reply.Ok? ==> e.reply == Ok(200, UPDATED) && |e.rows| == |rows|
    ensures e.reply.Ok? ==> forall i :: 0 <= i < |rows| ==>
      e.rows[i] == if rows[i].incomeId == incomeId then Edited(rows[i], edit, now) else rows[i]
  {
    match FindIncome(rows, incomeId)
    case None => Effect(Fail(404, INCOME_NOT_FOUND), rows)
    case Some(row) =>
      match IncomeOwnershipError(user, row, "update")
      case Some(error) => Effect(Fail(403, error), rows)
      case None =>
        Effect(Ok(200, UPDATED), seq(|rows|, i requires 0 <= i < |rows| =>
          if rows[i].incomeId == incomeId then Edited(rows[i], edit, now) else rows[i]))
  }

  /** The rows that remain after `where('income_id', id).delete()`. */
  function RemoveIncome(rows: seq<Income>, incomeId: int): (r: seq<Income>)
    ensures forall x :: x in r <==> x in rows && x.incomeId != incomeId
    ensures !HasIncome(r, incomeId)
  {
    if |rows| == 0 then []
    else
      var rest := RemoveIncome(rows[1..], incomeId);
      assert forall x :: x in rows <==> x == rows[0] || x in rows[1..];
      if rows[0].incomeId == incomeId then rest else [rows[0]] + rest
  }

  /** `deleteIncome` */
  function DeleteIncome(rows: seq<Income>, user: Option<TokenPayload>, incomeId: int): (e: Effect<string, Income>)
    ensures e.reply.Fail? ==> e.rows == rows
    ensures !HasIncome(rows, incomeId) ==> e.reply == Fail(404, INCOME_NOT_FOUND)
    ensures HasIncome(rows, incomeId) && IncomeOwnershipError(user, FindIncome(rows, incomeId).value, "delete").Some? ==>
      e.reply == Fail(403, IncomeOwnershipError(user, FindIncome(rows, incomeId).value, "delete").value)
    ensures e.reply.Ok? <==>
      HasIncome(rows, incomeId) && IncomeOwnershipError(user, FindIncome(rows, incomeId).value, "delete").None?
    ensures e.reply.Ok? ==> e.reply == Ok(200, DELETED)
    ensures e.reply.Ok? ==> forall x :: x in e.rows <==> x in rows && x.incomeId != incomeId
  {
    match FindIncome(rows, incomeId)
    case None => Effect(Fail(404, INCOME_NOT_FOUND), rows)
    case Some(row) =>
      match IncomeOwnershipError(user, row, "delete")
      case Some(error) => Effect(Fail(403, error), rows)
      case None => Effect(Ok(200, DELETED), RemoveIncome(rows, incomeId))
  }

  /**
   * An owner can change only rows of the token's hostel: a successful update
   * or delete by an owner touched a row of that hostel.
   */
  lemma OwnerChangesOnlyOwnRows(rows: seq<Income>, user: Option<TokenPayload>, incomeId: int, edit: IncomeEdit, now: int)
    requires HasRole(user, OWNER_ROLE)
    ensures UpdateIncome(rows, user, incomeId, edit, now).reply.Ok? ==>
      user.value.hostelId == Some(FindIncome(rows, incomeId).value.hostelId)
    ensures DeleteIncome(rows, user, incomeId).reply.Ok? ==>
      user.value.hostelId == Some(FindIncome(rows, incomeId).value.hostelId)
  {
  }
}

=== FILE: js.dfy ===
/**
 * The slice of JavaScript value semantics the handlers depend on: request-body
 * properties that may be absent or null, truthiness, ASCII lower-casing, the
 * regular-expression character classes `\d` and `\s`, `String.prototype.trim`
 * and `split`, `parseInt` and `String(n)` on integers, and `JSON.stringify`
 * of a list of strings.
 */
module Js {
  import opened Wrappers

  /** A property read from a JSON request body: missing, explicitly `null`, or a value. */
  datatype Field<T> = Undefined | Null | Given(value: T)

  /** 10^21: from this magnitude on, `String(n)` writes a number in exponent form. */
  const PLAIN_NUMBER_LIMIT: int := 1_000_000_000_000_000_000_000

  /** An integral JSON number that `String` writes as a plain decimal numeral. */
  type PlainInt = n: int | -PLAIN_NUMBER_LIMIT < n < PLAIN_NUMBER_LIMIT

  /** A JSON scalar that may arrive where a handler applies `parseInt`. */
  datatype Scalar = Num(n: PlainInt) | Text(s: string)

  /** `x !== undefined` */
  predicate Defined<T>(f: Field<T>) {
    !f.Undefined?
  }

  /** JavaScript truthiness of a numeric body property (`0`, `null` and `undefined` are falsy). */
  predicate TruthyInt(f: Field<int>) {
    f.Given? && f.value != 0
  }

  /** JavaScript truthiness of a string body property (`""`, `null` and `undefined` are falsy). */
  predicate TruthyStr(f: Field<string>) {
    f.Given? && f.value != ""
  }

  /** JavaScript truthiness of a body property that may be a number or a string. */
  predicate TruthyScalar(f: Field<Scalar>) {
    match f
    case Given(Num(n)) => n != 0
    case Given(Text(s)) => s != ""
    case _ => false
  }

  /** JavaScript truthiness of a nullable text cell read from the database. */
  predicate TruthyText(c: Option<string>) {
    c.Some? && c.value != ""
  }

  /** JavaScript truthiness of a nullable numeric cell read from the database. */
  predicate TruthyNumber(c: Option<int>) {
    c.Some? && c.value != 0
  }

  /**
   * The cell a body property becomes when it is written: `null` is SQL NULL,
   * and knex, configured with `useNullAsDefault`, writes NULL for an
   * undefined property in an insert.
   */
  function Cell<T>(f: Field<T>): Option<T> {
    match f
    case Given(v) => Some(v)
    case _ => None
  }

  /** `x || null` for a string property. */
  function OrNull(f: Field<string>): (c: Option<string>)
    ensures c.Some? <==> TruthyStr(f)
    ensures c.Some? ==> c.value == f.value
  {
    if TruthyStr(f) then Some(f.value) else None
  }

  // ---------------------------------------------------------------- characters

  /** The regular-expression class `\d`: ASCII decimal digits only. */
  predicate IsDigit(c: char) {
    '0' <= c <= '9'
  }

  /**
   * The regular-expression class `\s`, which is also the set `trim` strips:
   * the ECMAScript WhiteSpace and LineTerminator code points.
   */
  predicate IsSpace(c: char) {
    var k := c as int;
    k == 0x09 || k == 0x0A || k == 0x0B || k == 0x0C || k == 0x0D || k == 0x20
    || k == 0xA0 || k == 0x1680 || (0x2000 <= k <= 0x200A)
    || k == 0x2028 || k == 0x2029 || k == 0x202F || k == 0x205F
    || k == 0x3000 || k == 0xFEFF
  }

  /** `toLowerCase` restricted to ASCII letters. */
  function LowerChar(c: char): char {
    if 'A' <= c <= 'Z' then (c as int + 32) as char else c
  }

  function Lower(s: string): (r: string)
    ensures |r| == |s|
    ensures forall i :: 0 <= i < |s| ==> r[i] == LowerChar(s[i])
  {
    seq(|s|, i requires 0 <= i < |s| => LowerChar(s[i]))
  }

  /** `w` occurs in `s` starting at index `i`. */
  predicate OccursAt(s: string, w: string, i: int) {
    0 <= i && i + |w| <= |s| && s[i..i + |w|] == w
  }

  /** `s.includes(w)` */
  predicate Contains(s: string, w: string) {
    exists i | 0 <= i <= |s| - |w| :: OccursAt(s, w, i)
  }

  /** `s.startsWith(p)` */
  predicate StartsWith(s: string, p: string) {
    |p| <= |s| && s[..|p|] == p
  }

  /** A string that occurs inside `w` occurs wherever `w` does. */
  lemma ContainsTransitive(s: string, w: string, v: string)
    requires Contains(s, w) && Contains(w, v)
    ensures Contains(s, v)
  {
    var i :| 0 <= i <= |s| - |w| && OccursAt(s, w, i);
    var j :| 0 <= j <= |w| - |v| && OccursAt(w, v, j);
    forall k | 0 <= k < |v|
      ensures s[i + j + k] == v[k]
    {
      assert w[j + k] == v[k];
      assert s[i + (j + k)] == w[j + k];
    }
    assert s[i + j..i + j + |v|] == v;
    assert OccursAt(s, v, i + j);
  }

  // ---------------------------------------------------------------- numerals

  /** The value of a digit in radix 36 (`0`-`9`, then `a`-`z` in either case); 36 for any other character. */
  function DigitValue(c: char): nat {
    if '0' <= c <= '9' then c as int - '0' as int
    else if 'a' <= c <= 'z' then c as int - 'a' as int + 10
    else if 'A' <= c <= 'Z' then c as int - 'A' as int + 10
    else 36
  }

  predicate IsRadixDigit(c: char, radix: nat) {
    DigitValue(c) < radix
  }

  predicate AllDigits(s: string) {
    forall i :: 0 <= i < |s| ==> IsDigit(s[i])
  }

  /** The number a string of radix digits denotes. */
  function RadixValue(s: string, radix: nat): nat {
    if |s| == 0 then 0
    else RadixValue(s[..|s| - 1], radix) * radix + DigitValue(s[|s| - 1])
  }

  /** The number a string of decimal digits denotes. */
  function DecimalValue(s: string): nat {
    RadixValue(s, 10)
  }

  /** The length of the longest prefix of `s` made of radix digits. */
  function RunLength(s: string, radix: nat): (n: nat)
    ensures n <= |s|
    ensures forall i :: 0 <= i < n ==> IsRadixDigit(s[i], radix)
    ensures n < |s| ==> !IsRadixDigit(s[n], radix)
  {
    if |s| > 0 && IsRadixDigit(s[0], radix) then 1 + RunLength(s[1..], radix) else 0
  }

  /** The end of the run of `\d` characters that starts at index `i`. */
  function DigitRunEnd(s: string, i: nat): (j: nat)
    requires i <= |s|
    ensures i <= j <= |s|
    ensures forall k :: i <= k < j ==> IsDigit(s[k])
    ensures j < |s| ==> !IsDigit(s[j])
    decreases |s| - i
  {
    if i < |s| && IsDigit(s[i]) then DigitRunEnd(s, i + 1) else i
  }

  /** The end of the run of `\s` characters that starts at index `i`. */
  function SpaceRunEnd(s: string, i: nat): (j: nat)
    requires i <= |s|
    ensures i <= j <= |s|
    ensures forall k :: i <= k < j ==> IsSpace(s[k])
    ensures j < |s| ==> !IsSpace(s[j])
    decreases |s| - i
  {
    if i < |s| && IsSpace(s[i]) then SpaceRunEnd(s, i + 1) else i
  }

  /** `s` without its leading WhiteSpace and LineTerminator characters. */
  function TrimStart(s: string): (r: string)
    ensures |r| <= |s| && r == s[|s| - |r|..]
    ensures |r| > 0 ==> !IsSpace(r[0])
    ensures forall i :: 0 <= i < |s| - |r| ==> IsSpace(s[i])
  {
    if |s| > 0 && IsSpace(s[0]) then TrimStart(s[1..]) else s
  }

  /** `s` without its trailing WhiteSpace and LineTerminator characters. */
  function TrimEnd(s: string): (r: string)
    ensures |r| <= |s| && r == s[..|r|]
    ensures |r| > 0 ==> !IsSpace(r[|r| - 1])
    ensures forall i :: |r| <= i < |s| ==> IsSpace(s[i])
  {
    if |s| > 0 && IsSpace(s[|s| - 1]) then TrimEnd(s[..|s| - 1]) else s
  }

  /** `s.trim()` */
  function Trim(s: string): string {
    TrimEnd(TrimStart(s))
  }

  /**
   * `parseInt(s)` with no radix argument, as section 19.2.5 of ECMA-262
   * defines it; `None` is NaN. Leading white space is skipped, one sign is
   * accepted, and the unsigned numeral after it is read by `ParseUnsigned`.
   */
  function ParseInt(s: string): (r: Option<int>) {
    var t := TrimStart(s);
    var negative := |t| > 0 && t[0] == '-';
    var u := if |t| > 0 && (t[0] == '-' || t[0] == '+') then t[1..] else t;
    match ParseUnsigned(u)
    case None => None
    case Some(v) =>
      var w: int := v;
      Some(if negative then -w else w)
  }

  /**
   * The unsigned part of `parseInt`: a `0x`/`0X` prefix selects radix 16,
   * and the longest run of digits that follows is read; anything after it
   * is ignored, and no digit at all is NaN.
   */
  function ParseUnsigned(u: string): (r: Option<nat>)
    ensures |u| > 0 && !IsRadixDigit(u[0], 10) ==> r.None?
  {
    var hex := |u| >= 2 && u[0] == '0' && (u[1] == 'x' || u[1] == 'X');
    var radix := if hex then 16 else 10;
    var digits := if hex then u[2..] else u;
    var n := RunLength(digits, radix);
    if n == 0 then None else Some(RadixValue(digits[..n], radix))
  }

  function DigitChar(d: nat): char
    requires d < 10
  {
    ('0' as int + d) as char
  }

  /** The decimal numeral of a natural number, without leading zeros. */
  function NatToString(n: nat): (s: string)
    ensures |s| > 0 && AllDigits(s)
    ensures s[0] == '0' ==> n == 0
    decreases n
  {
    if n < 10 then [DigitChar(n)] else NatToString(n / 10) + [DigitChar(n % 10)]
  }

  /**
   * The decimal numeral of an integer: what `String(n)` writes for a
   * `PlainInt`, and so for every key and count read from the database.
   */
  function IntToString(n: int): string {
    if n < 0 then "-" + NatToString(-n) else NatToString(n)
  }

  /** `String(x)` for a body property that is a number, a string, `null` or missing. */
  function ScalarString(f: Field<Scalar>): string {
    match f
    case Undefined => "undefined"
    case Null => "null"
    case Given(Num(n)) => IntToString(n)
    case Given(Text(s)) => s
  }

  lemma {:induction false} NatToStringValue(n: nat)
    ensures DecimalValue(NatToString(n)) == n
    decreases n
  {
    var s := NatToString(n);
    if n >= 10 {
      NatToStringValue(n / 10);
      assert s[..|s| - 1] == NatToString(n / 10);
      assert DigitValue(s[|s| - 1]) == n % 10;
    } else {
      assert s[..|s| - 1] == [];
      assert RadixValue(s[..|s| - 1], 10) == 0;
      assert DigitValue(s[0]) == n;
    }
  }

  /** Every character of a decimal numeral is a radix-10 digit, so `RunLength` reads all of it. */
  lemma {:induction false} RunLengthOfDigits(s: string)
    requires AllDigits(s)
    ensures RunLength(s, 10) == |s|
    decreases |s|
  {
    if |s| > 0 {
      RunLengthOfDigits(s[1..]);
    }
  }

  /** Text that starts with anything but white space, a sign or a digit is NaN. */
  lemma ParseIntOfNonNumeral(s: string)
    requires |s| > 0 && !IsSpace(s[0]) && s[0] != '-' && s[0] != '+' && !IsDigit(s[0])
    ensures ParseInt(s).None?
  {
    assert TrimStart(s) == s;
    assert !IsRadixDigit(s[0], 10);
  }

  /** A numeral without leading zeros is read back as its value. */
  lemma ParseUnsignedOfNatToString(m: nat)
    ensures ParseUnsigned(NatToString(m)) == Some(m)
  {
    var digits := NatToString(m);
    assert |digits| >= 2 ==> digits[0] != '0';
    RunLengthOfDigits(digits);
    assert digits[..|digits|] == digits;
    NatToStringValue(m);
  }

  /**
   * Printing an integer as a decimal numeral and parsing it back gives the
   * integer: `parseInt(String(n)) === n` for every `PlainInt`.
   */
  lemma ParseIntOfIntToString(n: int)
    ensures ParseInt(IntToString(n)) == Some(n)
  {
    var m: nat := if n < 0 then -n else n;
    ParseUnsignedOfNatToString(m);
    if n < 0 {
      ParseIntOfNegatedDigits(NatToString(m));
    } else {
      ParseIntOfDigits(NatToString(m));
    }
  }

  /** Text that does not start with white space is left alone by `TrimStart`. */
  lemma TrimStartOfNonSpace(s: string)
    requires |s| > 0 && !IsSpace(s[0])
    ensures TrimStart(s) == s
  {
  }

  /** A numeral that starts with a digit is read by `ParseUnsigned`. */
  lemma ParseIntOfDigits(d: string)
    requires |d| > 0 && IsDigit(d[0]) && ParseUnsigned(d).Some?
    ensures ParseInt(d) == Some(ParseUnsigned(d).value as int)
  {
    TrimStartOfNonSpace(d);
    var t := TrimStart(d);
    assert t == d;
    assert t[0] != '-' && t[0] != '+';
  }

  /** A minus sign before such a numeral negates its value. */
  lemma ParseIntOfNegatedDigits(d: string)
    requires |d| > 0 && IsDigit(d[0]) && ParseUnsigned(d).Some?
    ensures ParseInt("-" + d) == Some(-(ParseUnsigned(d).value as int))
  {
    var s := "-" + d;
    TrimStartOfNonSpace(s);
    var t := TrimStart(s);
    assert t == s && t[0] == '-';
    assert t[1..] == d;
  }

  // ---------------------------------------------------------------- split and join

  /** `s.split(',')`: the pieces between commas; `"".split(',')` is `[""]`. */
  function SplitComma(s: string): (r: seq<string>)
    ensures |r| > 0
  {
    if |s| == 0 then [""]
    else if s[0] == ',' then [""] + SplitComma(s[1..])
    else
      var rest := SplitComma(s[1..]);
      [[s[0]] + rest[0]] + rest[1..]
  }

  /** `items.join(',')` */
  function JoinComma(items: seq<string>): string {
    if |items| == 0 then ""
    else if |items| == 1 then items[0]
    else items[0] + "," + JoinComma(items[1..])
  }

  predicate CommaFree(s: string) {
    forall i :: 0 <= i < |s| ==> s[i] != ','
  }

  lemma {:induction false} SplitCommaFreePrefix(x: string, t: string)
    requires CommaFree(x)
    ensures SplitComma(x + t) == [x + SplitComma(t)[0]] + SplitComma(t)[1..]
    decreases |x|
  {
    if |x| > 0 {
      assert (x + t)[1..] == x[1..] + t;
      SplitCommaFreePrefix(x[1..], t);
      assert [x[0]] + (x[1..] + SplitComma(t)[0]) == x + SplitComma(t)[0];
    } else {
      assert x + t == t;
      assert x + SplitComma(t)[0] == SplitComma(t)[0];
    }
  }

  /** Splitting a join of comma-free pieces recovers the pieces. */
  lemma {:induction false} SplitJoin(items: seq<string>)
    requires |items| > 0
    requires forall k :: 0 <= k < |items| ==> CommaFree(items[k])
    ensures SplitComma(JoinComma(items)) == items
    decreases |items|
  {
    if |items| == 1 {
      SplitCommaFreePrefix(items[0], "");
      assert items[0] + "" == items[0];
    } else {
      var rest := JoinComma(items[1..]);
      SplitJoin(items[1..]);
      assert items[0] + "," + rest == items[0] + ("," + rest);
      SplitCommaFreePrefix(items[0], "," + rest);
      assert ("," + rest)[1..] == rest;
      assert items[0] + "" == items[0];
      assert [items[0]] + items[1..] == items;
    }
  }

  // ---------------------------------------------------------------- JSON.stringify

  function HexDigit(d: nat): char
    requires d < 16
  {
    if d < 10 then DigitChar(d) else ('a' as int + d - 10) as char
  }

  /** One character as `JSON.stringify` writes it inside a string literal. */
  function JsonEscapeChar(c: char): string {
    if c == '"' then "\\\""
    else if c == '\\' then "\\\\"
    else if c == '\U{0008}' then "\\b"
    else if c == '\U{000C}' then "\\f"
    else if c == '\n' then "\\n"
    else if c == '\r' then "\\r"
    else if c == '\t' then "\\t"
    else if (c as int) < 0x20 then "\\u00" + [HexDigit((c as int) / 16), HexDigit((c as int) % 16)]
    else [c]
  }

  function JsonEscape(s: string): string {
    if |s| == 0 then "" else JsonEscapeChar(s[0]) + JsonEscape(s[1..])
  }

  function JsonStringList(items: seq<string>): string {
    if |items| == 0 then ""
    else if |items| == 1 then "\"" + JsonEscape(items[0]) + "\""
    else "\"" + JsonEscape(items[0]) + "\"," + JsonStringList(items[1..])
  }

  /** `JSON.stringify(x)` for a body property that is a list of strings or `null`. */
  function JsonStringify(f: Field<seq<string>>): (r: string)
    requires Defined(f)
    ensures f.Null? <==> r == "null"
    ensures f.Given? ==> |r| >= 2 && r[0] == '[' && r[|r| - 1] == ']'
  {
    match f
    case Null => "null"
    case Given(items) =>
      var text := "[" + JsonStringList(items) + "]";
      assert text[0] != "null"[0];
      text
  }
}

=== FILE: room_tables.dfy ===
/**
 * The rows of the `rooms`, `room_types` and `students` tables the room
 * handlers read and write. A table is a sequence of rows in the order the
 * database returns them; a nullable column is an `Option`; timestamps come
 * from the caller's clock as integers.
 */
module RoomTables {
  import opened Wrappers

  datatype Room = Room(
    roomId: int,
    hostelId: int,
    roomNumber: Option<string>,
    roomTypeId: Option<int>,
    floorNumber: Option<int>,
    capacity: Option<int>,
    occupiedBeds: Option<int>,
    rentPerBed: Option<int>,
    amenities: Option<string>,
    isAvailable: Option<int>,
    createdAt: Option<int>,
    updatedAt: Option<int>)

  /** A room type; a NULL name or description is kept as the empty string, which is falsy like NULL. */
  datatype RoomType = RoomType(roomTypeId: int, name: string, description: string)

  /** A student; `status == 1` marks an active one. */
  datatype Student = Student(
    studentId: int,
    roomId: Option<int>,
    status: int,
    firstName: Option<string>,
    lastName: Option<string>,
    phone: Option<string>,
    photo: Option<string>)

  /** `room_id` is the primary key of `rooms`. */
  predicate UniqueRoomIds(rooms: seq<Room>) {
    forall i, j :: 0 <= i < |rooms| && 0 <= j < |rooms| && i != j ==> rooms[i].roomId != rooms[j].roomId
  }

  /** No hostel has two rooms with the same room number. */
  predicate UniqueRoomNumbers(rooms: seq<Room>) {
    forall i, j ::
      (0 <= i < |rooms| && 0 <= j < |rooms| && i != j && rooms[i].hostelId == rooms[j].hostelId && rooms[i].roomNumber.Some?)
      ==> rooms[i].roomNumber != rooms[j].roomNumber
  }

  predicate HasRoom(rooms: seq<Room>, roomId: int) {
    exists i :: 0 <= i < |rooms| && rooms[i].roomId == roomId
  }

  /** `db('rooms').where({ room_id }).first()` */
  function FindRoom(rooms: seq<Room>, roomId: int): (r: Option<Room>)
    ensures r.Some? <==> HasRoom(rooms, roomId)
    ensures r.Some? ==> r.value in rooms && r.value.roomId == roomId
  {
    if |rooms| == 0 then None
    else if rooms[0].roomId == roomId then Some(rooms[0])
    else
      var r := FindRoom(rooms[1..], roomId);
      assert HasRoom(rooms[1..], roomId) ==> HasRoom(rooms, roomId) by {
        if HasRoom(rooms[1..], roomId) {
          var i :| 0 <= i < |rooms[1..]| && rooms[1..][i].roomId == roomId;
          assert rooms[i + 1].roomId == roomId;
        }
      }
      r
  }

  /** `db('room_types').where({ room_type_id }).first()`; a NULL id matches no room type. */
  function FindRoomType(types: seq<RoomType>, id: Option<int>): (r: Option<RoomType>)
    ensures r.Some? <==> id.Some? && exists t :: t in types && t.roomTypeId == id.value
    ensures r.Some? ==> r.value in types && r.value.roomTypeId == id.value
  {
    if id.None? || |types| == 0 then None
    else if types[0].roomTypeId == id.value then Some(types[0])
    else FindRoomType(types[1..], id)
  }

  /** The room's active students: `students` where `room_id` matches and `status = 1`. */
  function ActiveOccupants(students: seq<Student>, roomId: int): (r: seq<Student>)
    ensures forall s :: s in r <==> s in students && s.roomId == Some(roomId) && s.status == 1
    ensures |r| <= |students|
  {
    if |students| == 0 then []
    else
      var rest := ActiveOccupants(students[1..], roomId);
      assert forall s :: s in students <==> s == students[0] || s in students[1..];
      if students[0].roomId == Some(roomId) && students[0].status == 1 then [students[0]] + rest else rest
  }
}

=== FILE: rooms.dfy ===
/**
 * The room handlers of `roomController.ts`: listing rooms with their bed
 * counts, reading one room with its occupants, and creating, updating and
 * deleting rooms under the owner/admin rules.
 *
 * Each handler is a function of the tables it reads (and of the caller's
 * token payload and request body); a writing handler also returns the
 * `rooms` table it leaves behind. `JSON.parse` is a parameter (`None` when
 * it throws) and the clock reading `new Date()` is the integer `now`.
 */
module Rooms {
  import opened Wrappers
  import opened Js
  import opened Http
  import opened RoomTables
  import opened RoomCapacity
  import opened Sql

  const NOT_LINKED := "Your account is not linked to any hostel. Please contact administrator."
  const NOT_LINKED_SHORT := "Your account is not linked to any hostel"
  const ADMIN_NEEDS_HOSTEL := "Admin must specify hostel_id"
  const CREATE_FORBIDDEN := "Unauthorized to create rooms"
  const REQUIRED_FIELDS := "Required fields: room_number, room_type_id, rent_per_bed"
  const DUPLICATE_NUMBER := "Room number already exists in this hostel"
  const ROOM_NOT_FOUND := "Room not found"
  const ROOM_OCCUPIED := "Cannot delete. Students are currently assigned to this room."
  const CREATED := "Room created successfully"
  const UPDATED := "Room updated successfully"
  const DELETED := "Room deleted successfully"

  /** `JSON.parse` applied to a stored amenities string: the list it denotes, or `None` when it throws. */
  type JsonParser = string -> Option<seq<string>>

  // ------------------------------------------------ beds

  /** `Math.max(0, capacity - occupied)` */
  function AvailableBeds(capacity: int, occupied: int): (r: int)
    ensures r >= 0 && r >= capacity - occupied
    ensures r == 0 || r == capacity - occupied
    ensures r == 0 <==> occupied >= capacity
    ensures 0 <= occupied <= capacity ==> r + occupied == capacity
  {
    if capacity - occupied > 0 then capacity - occupied else 0
  }

  /** `room.capacity && room.capacity > 0`: the stored capacity is used as it is. */
  predicate StoredCapacity(room: Room) {
    room.capacity.Some? && room.capacity.value > 0
  }

  /** The capacity the listing reports: the stored one, else the room type's, else `room_type_id || 0`. */
  function ListCapacity(room: Room, roomType: Option<RoomType>): (r: int)
    ensures StoredCapacity(room) ==> r == room.capacity.value && r > 0
    ensures !StoredCapacity(room) && roomType.Some? ==>
      r == CapacityFromRoomType(roomType.value.name, roomType.value.description)
    ensures !StoredCapacity(room) && roomType.None? ==> r == room.roomTypeId.GetOr(0)
  {
    if StoredCapacity(room) then room.capacity.value
    else if roomType.Some? then CapacityFromRoomType(roomType.value.name, roomType.value.description)
    else room.roomTypeId.GetOr(0)
  }

  /**
   * The capacity the detail view reports: the stored capacity read back with
   * `parseInt(String(c))` when positive, else the room type's (an absent
   * type reads as an empty name), else 2.
   */
  function DetailCapacity(room: Room, roomType: Option<RoomType>): (r: int)
    ensures r >= 1
    ensures StoredCapacity(room) ==> r == room.capacity.value
    ensures !StoredCapacity(room) && roomType.Some? && CapacityFromRoomType(roomType.value.name, roomType.value.description) > 0
      ==> r == CapacityFromRoomType(roomType.value.name, roomType.value.description)
  {
    var parsed :=
      if room.capacity.Some? then
        ParseIntOfIntToString(room.capacity.value);
        ParseInt(IntToString(room.capacity.value))
      else None;
    var fromColumn := if parsed.Some? && parsed.value > 0 then parsed.value else 0;
    var name := if roomType.Some? then roomType.value.name else "";
    var description := if roomType.Some? then roomType.value.description else "";
    var total := if fromColumn <= 0 then CapacityFromRoomType(name, description) else fromColumn;
    if total <= 0 then 2 else total
  }

  /**
   * The listing and the detail view agree on a room's capacity except where
   * their last fallbacks differ: the detail view turns a capacity of 0 or
   * less into 2, and with no room type it never uses `room_type_id`.
   */
  lemma CapacityViewsAgree(room: Room, roomType: Option<RoomType>)
    ensures StoredCapacity(room) || roomType.Some? ==>
      DetailCapacity(room, roomType) == (if ListCapacity(room, roomType) > 0 then ListCapacity(room, roomType) else 2)
    ensures !StoredCapacity(room) && roomType.None? ==> DetailCapacity(room, roomType) == 2
  {
    if room.capacity.Some? {
      ParseIntOfIntToString(room.capacity.value);
    }
    if roomType.None? {
      assert NameSilent("");
    }
  }

  /** The occupancy the listing reports: the count of active students, or the stored `occupied_beds || 0` when there are none. */
  function ListedOccupancy(room: Room, students: seq<Student>): (r: int)
    ensures |ActiveOccupants(students, room.roomId)| > 0 ==> r == |ActiveOccupants(students, room.roomId)|
    ensures |ActiveOccupants(students, room.roomId)| == 0 ==> r == room.occupiedBeds.GetOr(0)
  {
    var n := |ActiveOccupants(students, room.roomId)|;
    if n > 0 then n else room.occupiedBeds.GetOr(0)
  }

  // ------------------------------------------------ amenities

  /** `.map(a => a.trim())` */
  function TrimEach(pieces: seq<string>): (m: seq<string>)
    ensures |m| == |pieces|
    ensures forall i :: 0 <= i < |pieces| ==> m[i] == Trim(pieces[i])
  {
    seq(|pieces|, i requires 0 <= i < |pieces| => Trim(pieces[i]))
  }

  /** `.filter(Boolean)` on text: the non-empty items, in order. */
  function NonEmpty(items: seq<string>): (r: seq<string>)
    ensures |r| <= |items|
    ensures forall t :: t in r <==> t in items && t != ""
  {
    if |items| == 0 then []
    else
      var rest := NonEmpty(items[1..]);
      assert forall t :: t in items <==> t == items[0] || t in items[1..];
      if items[0] == "" then rest else [items[0]] + rest
  }

  /** Items that are all non-empty pass the filter unchanged. */
  lemma {:induction false} NonEmptyKeepsAll(items: seq<string>)
    requires forall k :: 0 <= k < |items| ==> items[k] != ""
    ensures NonEmpty(items) == items
    decreases |items|
  {
    if |items| > 0 {
      NonEmptyKeepsAll(items[1..]);
      assert [items[0]] + items[1..] == items;
    }
  }

  /**
   * `.map(a => a.trim()).filter(Boolean)` over the pieces of a split: the
   * items are exactly the pieces' trimmed texts that are not empty.
   */
  function TrimmedItems(pieces: seq<string>): (r: seq<string>)
    ensures |r| <= |pieces|
    ensures forall t :: t in r <==> t != "" && t in TrimEach(pieces)
  {
    NonEmpty(TrimEach(pieces))
  }

  /** The amenities list of a stored cell: empty when the cell is falsy, else its JSON, else its comma-separated items. */
  function AmenitiesOf(cell: Option<string>, parseJson: JsonParser): (r: seq<string>)
    ensures !TruthyText(cell) ==> r == []
    ensures TruthyText(cell) && parseJson(cell.value).Some? ==> r == parseJson(cell.value).value
    ensures TruthyText(cell) && parseJson(cell.value).None? ==>
      forall t :: t in r <==> t != "" && t in TrimEach(SplitComma(cell.value))
  {
    if !TruthyText(cell) then []
    else
      match parseJson(cell.value)
      case Some(items) => items
      case None => TrimmedItems(SplitComma(cell.value))
  }

  /** An amenity that survives a comma-separated round trip: non-empty, without commas, and already trimmed. */
  predicate PlainItem(s: string) {
    s != "" && CommaFree(s) && Trim(s) == s
  }

  lemma TrimmedPlainItems(items: seq<string>)
    requires forall k :: 0 <= k < |items| ==> PlainItem(items[k])
    ensures TrimmedItems(items) == items
  {
    var trimmed := TrimEach(items);
    assert trimmed == items;
    NonEmptyKeepsAll(items);
  }

  /**
   * A cell holding plain items joined with commas, which `JSON.parse`
   * rejects, reads back as exactly those items.
   */
  lemma CsvAmenitiesRoundTrip(items: seq<string>, parseJson: JsonParser)
    requires forall k :: 0 <= k < |items| ==> PlainItem(items[k])
    requires parseJson(JoinComma(items)).None?
    ensures AmenitiesOf(Some(JoinComma(items)), parseJson) == items
  {
    if |items| > 0 {
      forall k | 0 <= k < |items| ensures CommaFree(items[k]) {
      }
      SplitJoin(items);
      TrimmedPlainItems(items);
      assert |items| > 1 ==> JoinComma(items) == items[0] + "," + JoinComma(items[1..]);
      assert JoinComma(items) != "";
      AmenitiesOfText(JoinComma(items), parseJson);
    }
  }

  /** A non-empty cell that `JSON.parse` rejects reads as its trimmed comma-separated items. */
  lemma AmenitiesOfText(cell: string, parseJson: JsonParser)
    requires cell != "" && parseJson(cell).None?
    ensures AmenitiesOf(Some(cell), parseJson) == TrimmedItems(SplitComma(cell))
  {
  }

  // ------------------------------------------------ reading

  /** A room with the figures the listing adds to it. */
  datatype RoomView = RoomView(room: Room, amenities: seq<string>, capacity: int, occupied: int, available: int)

  /** The detail view adds the active occupants. */
  datatype RoomDetail = RoomDetail(view: RoomView, occupants: seq<Student>)

  /** One element of the listing. */
  function ListView(room: Room, types: seq<RoomType>, students: seq<Student>, parseJson: JsonParser): (v: RoomView)
    ensures v.room == room
    ensures v.capacity == ListCapacity(room, FindRoomType(types, room.roomTypeId))
    ensures v.occupied == ListedOccupancy(room, students)
    ensures v.available == AvailableBeds(v.capacity, v.occupied)
    ensures v.amenities == AmenitiesOf(room.amenities, parseJson)
  {
    var capacity := ListCapacity(room, FindRoomType(types, room.roomTypeId));
    var occupied := ListedOccupancy(room, students);
    RoomView(room, AmenitiesOf(room.amenities, parseJson), capacity, occupied, AvailableBeds(capacity, occupied))
  }

  /**
   * The rows the listing selects: an owner sees only the hostel named in the
   * token, and an admin who passes `hostelId` only that hostel.
   */
  predicate Listed(user: Option<TokenPayload>, hostelQuery: Option<int>, room: Room) {
    (HasRole(user, OWNER_ROLE) ==> user.value.hostelId == Some(room.hostelId))
    && (HasRole(user, ADMIN_ROLE) && hostelQuery.Some? ==> room.hostelId == hostelQuery.value)
  }

  function SelectRooms(rooms: seq<Room>, user: Option<TokenPayload>, hostelQuery: Option<int>): (r: seq<Room>)
    ensures forall room :: room in r <==> room in rooms && Listed(user, hostelQuery, room)
  {
    if |rooms| == 0 then []
    else
      var rest := SelectRooms(rooms[1..], user, hostelQuery);
      assert forall room :: room in rooms <==> room == rooms[0] || room in rooms[1..];
      if Listed(user, hostelQuery, rooms[0]) then [rooms[0]] + rest else rest
  }

  function ListViews(rooms: seq<Room>, types: seq<RoomType>, students: seq<Student>, parseJson: JsonParser): (r: seq<RoomView>)
    ensures |r| == |rooms|
    ensures forall i :: 0 <= i < |rooms| ==> r[i] == ListView(rooms[i], types, students, parseJson)
  {
    seq(|rooms|, i requires 0 <= i < |rooms| => ListView(rooms[i], types, students, parseJson))
  }

  /**
   * `getRooms`. `hostelQuery` is the `hostelId` query parameter as the
   * database compares it, `None` when it is absent or empty.
   */
  function GetRooms(rooms: seq<Room>, types: seq<RoomType>, students: seq<Student>, user: Option<TokenPayload>,
                    hostelQuery: Option<int>, parseJson: JsonParser): (r: Reply<seq<RoomView>>)
    ensures r.Fail? <==> HasRole(user, OWNER_ROLE) && LinkedHostel(user.value).None?
    ensures r.Fail? ==> r == Fail(403, NOT_LINKED)
    ensures r.Ok? ==> r.status == 200
    ensures r.Ok? ==> forall v :: v in r.value ==>
      v.room in rooms && Listed(user, hostelQuery, v.room) && v == ListView(v.room, types, students, parseJson)
    ensures r.Ok? ==> forall room :: room in rooms && Listed(user, hostelQuery, room) ==>
      ListView(room, types, students, parseJson) in r.value
  {
    if HasRole(user, OWNER_ROLE) && LinkedHostel(user.value).None? then Fail(403, NOT_LINKED)
    else
      var selected := SelectRooms(rooms, user, hostelQuery);
      var views := ListViews(selected, types, students, parseJson);
      assert forall room :: room in selected ==> ListView(room, types, students, parseJson) in views by {
        forall room | room in selected ensures ListView(room, types, students, parseJson) in views {
          var i :| 0 <= i < |selected| && selected[i] == room;
          assert views[i] == ListView(room, types, students, parseJson);
        }
      }
      Ok(200, views)
  }

  lemma {:induction false} SelectRoomsAppend(rooms: seq<Room>, extra: seq<Room>, user: Option<TokenPayload>, hostelQuery: Option<int>)
    ensures SelectRooms(rooms + extra, user, hostelQuery) == SelectRooms(rooms, user, hostelQuery) + SelectRooms(extra, user, hostelQuery)
    decreases |rooms|
  {
    if |rooms| == 0 {
      assert rooms + extra == extra;
    } else {
      assert (rooms + extra)[1..] == rooms[1..] + extra;
      SelectRoomsAppend(rooms[1..], extra, user, hostelQuery);
    }
  }

  lemma {:induction false} SelectRoomsNoneListed(rooms: seq<Room>, user: Option<TokenPayload>, hostelQuery: Option<int>)
    requires forall i :: 0 <= i < |rooms| ==> !Listed(user, hostelQuery, rooms[i])
    ensures SelectRooms(rooms, user, hostelQuery) == []
    decreases |rooms|
  {
    if |rooms| > 0 {
      SelectRoomsNoneListed(rooms[1..], user, hostelQuery);
    }
  }

  /** An owner's listing does not change when rooms of other hostels are added to the table. */
  lemma OwnerListingIgnoresOtherHostels(rooms: seq<Room>, others: seq<Room>, types: seq<RoomType>, students: seq<Student>,
                                        user: Option<TokenPayload>, hostelQuery: Option<int>, parseJson: JsonParser)
    requires HasRole(user, OWNER_ROLE)
    requires forall i :: 0 <= i < |others| ==> user.value.hostelId != Some(others[i].hostelId)
    ensures GetRooms(rooms + others, types, students, user, hostelQuery, parseJson)
         == GetRooms(rooms, types, students, user, hostelQuery, parseJson)
  {
    SelectRoomsAppend(rooms, others, user, hostelQuery);
    SelectRoomsNoneListed(others, user, hostelQuery);
    assert SelectRooms(rooms, user, hostelQuery) + [] == SelectRooms(rooms, user, hostelQuery);
  }

  /** `getRoomById`: any caller may read any room. */
  function GetRoomById(rooms: seq<Room>, types: seq<RoomType>, students: seq<Student>, roomId: int,
                       parseJson: JsonParser): (r: Reply<RoomDetail>)
    ensures r.Fail? <==> !HasRoom(rooms, roomId)
    ensures r.Fail? ==> r == Fail(404, ROOM_NOT_FOUND)
    ensures r.Ok? ==> r.status == 200 && r.value.view.room in rooms && r.value.view.room.roomId == roomId
    ensures r.Ok? ==> forall s :: s in r.value.occupants <==> s in students && s.roomId == Some(roomId) && s.status == 1
    ensures r.Ok? ==> r.value.view.occupied == |r.value.occupants|
    ensures r.Ok? ==> r.value.view.capacity == DetailCapacity(r.value.view.room, FindRoomType(types, r.value.view.room.roomTypeId))
    ensures r.Ok? ==> r.value.view.available == AvailableBeds(r.value.view.capacity, r.value.view.occupied)
    ensures r.Ok? ==> r.value.view.amenities == AmenitiesOf(r.value.view.room.amenities, parseJson)
  {
    match FindRoom(rooms, roomId)
    case None => Fail(404, ROOM_NOT_FOUND)
    case Some(room) =>
      var occupants := ActiveOccupants(students, roomId);
      var capacity := DetailCapacity(room, FindRoomType(types, room.roomTypeId));
      var view := RoomView(room, AmenitiesOf(room.amenities, parseJson), capacity, |occupants|,
                           AvailableBeds(capacity, |occupants|));
      Ok(200, RoomDetail(view, occupants))
  }

  // ------------------------------------------------ creating

  /** The properties of a `createRoom` request body. */
  datatype NewRoomBody = NewRoomBody(
    hostelId: Field<int>,
    roomNumber: Field<string>,
    roomTypeId: Field<int>,
    floorNumber: Field<int>,
    occupiedBeds: Field<int>,
    rentPerBed: Field<int>,
    amenities: Field<seq<string>>)

  /** The hostel a new room goes into, or the reason the caller may not create one. */
  function CreateTarget(user: Option<TokenPayload>, body: NewRoomBody): (r: Reply<int>)
    ensures HasRole(user, OWNER_ROLE) ==>
      r == (if LinkedHostel(user.value).Some? then Ok(200, user.value.hostelId.value) else Fail(403, NOT_LINKED))
    ensures HasRole(user, ADMIN_ROLE) ==>
      r == (if TruthyInt(body.hostelId) then Ok(200, body.hostelId.value) else Fail(400, ADMIN_NEEDS_HOSTEL))
    ensures !HasRole(user, OWNER_ROLE) && !HasRole(user, ADMIN_ROLE) ==> r == Fail(403, CREATE_FORBIDDEN)
  {
    if HasRole(user, OWNER_ROLE) then
      match LinkedHostel(user.value)
      case Some(h) => Ok(200, h)
      case None => Fail(403, NOT_LINKED)
    else if HasRole(user, ADMIN_ROLE) then
      if TruthyInt(body.hostelId) then Ok(200, body.hostelId.value) else Fail(400, ADMIN_NEEDS_HOSTEL)
    else Fail(403, CREATE_FORBIDDEN)
  }

  /** `room_number`, `room_type_id` and `rent_per_bed` are all truthy. */
  predicate HasRequiredFields(body: NewRoomBody) {
    TruthyStr(body.roomNumber) && TruthyInt(body.roomTypeId) && TruthyInt(body.rentPerBed)
  }

  /** Some row of `hostel` already has room number `number`. */
  predicate NumberTaken(rooms: seq<Room>, hostel: int, number: string) {
    exists i :: 0 <= i < |rooms| && rooms[i].hostelId == hostel && rooms[i].roomNumber == Some(number)
  }

  /** The `room_id` the database assigns to an inserted row. */
  function NextRoomId(rooms: seq<Room>): (id: int)
    ensures !HasRoom(rooms, id)
  {
    NextKey(rooms, (r: Room) => r.roomId)
  }

  /** The capacity a new room of type `roomTypeId` gets: its type's classification, or 0 when no such type exists. */
  function TypeCapacity(types: seq<RoomType>, roomTypeId: int): (c: nat)
    ensures FindRoomType(types, Some(roomTypeId)).None? ==> c == 0
    ensures FindRoomType(types, Some(roomTypeId)).Some? ==>
      c == CapacityFromRoomType(FindRoomType(types, Some(roomTypeId)).value.name,
                                FindRoomType(types, Some(roomTypeId)).value.description)
  {
    match FindRoomType(types, Some(roomTypeId))
    case Some(t) => CapacityFromRoomType(t.name, t.description)
    case None => 0
  }

  /**
   * The row `createRoom` inserts: the body's columns, the capacity of its
   * room type, `occupied_beds` 0 unless sent, amenities as JSON text when
   * sent, and the room marked available.
   */
  function NewRoom(id: int, hostel: int, body: NewRoomBody, types: seq<RoomType>, now: int): (room: Room)
    requires HasRequiredFields(body)
    ensures room.roomId == id && room.hostelId == hostel
    ensures room.roomNumber == Some(body.roomNumber.value) && room.roomTypeId == Some(body.roomTypeId.value)
    ensures room.rentPerBed == Some(body.rentPerBed.value) && room.floorNumber == Cell(body.floorNumber)
    ensures FindRoomType(types, Some(body.roomTypeId.value)).None? ==> room.capacity == Some(0)
    ensures FindRoomType(types, Some(body.roomTypeId.value)).Some? ==>
      room.capacity == Some(CapacityFromRoomType(FindRoomType(types, Some(body.roomTypeId.value)).value.name,
                                                 FindRoomType(types, Some(body.roomTypeId.value)).value.description))
    ensures body.occupiedBeds.Undefined? ==> room.occupiedBeds == Some(0)
    ensures Defined(body.occupiedBeds) ==> room.occupiedBeds == Cell(body.occupiedBeds)
    ensures body.amenities.Given? ==> room.amenities == Some(JsonStringify(body.amenities))
    ensures !body.amenities.Given? ==> room.amenities == None
    ensures room.isAvailable == Some(1) && room.createdAt == Some(now) && room.updatedAt == None
  {
    var roomType := FindRoomType(types, Some(body.roomTypeId.value));
    Room(
      roomId := id,
      hostelId := hostel,
      roomNumber := Some(body.roomNumber.value),
      roomTypeId := Some(body.roomTypeId.value),
      floorNumber := Cell(body.floorNumber),
      capacity := Some(if roomType.Some? then CapacityFromRoomType(roomType.value.name, roomType.value.description) else 0),
      occupiedBeds := if Defined(body.occupiedBeds) then Cell(body.occupiedBeds) else Some(0),
      rentPerBed := Some(body.rentPerBed.value),
      amenities := if body.amenities.Given? then Some(JsonStringify(body.amenities)) else None,
      isAvailable := Some(1),
      createdAt := Some(now),
      updatedAt := None)
  }

  /** `createRoom`: the reply carries the new `room_id`. */
  function CreateRoom(rooms: seq<Room>, types: seq<RoomType>, user: Option<TokenPayload>, body: NewRoomBody, now: int)
    : (e: Effect<int, Room>)
    ensures e.reply.Fail? ==> e.rows == rooms
    ensures CreateTarget(user, body).Fail? ==> e.reply == Fail(CreateTarget(user, body).status, CreateTarget(user, body).error)
    ensures CreateTarget(user, body).Ok? && !HasRequiredFields(body) ==> e.reply == Fail(400, REQUIRED_FIELDS)
    ensures CreateTarget(user, body).Ok? && HasRequiredFields(body) && NumberTaken(rooms, CreateTarget(user, body).value, body.roomNumber.value)
      ==> e.reply == Fail(409, DUPLICATE_NUMBER)
    ensures e.reply.Ok? <==> (CreateTarget(user, body).Ok? && HasRequiredFields(body)
      && !NumberTaken(rooms, CreateTarget(user, body).value, body.roomNumber.value))
    ensures e.reply.Ok? ==> e.reply.status == 201 && |e.rows| == |rooms| + 1 && e.rows[..|rooms|] == rooms
    ensures e.reply.Ok? ==> !HasRoom(rooms, e.reply.value) && e.rows[|rooms|].roomId == e.reply.value
    ensures e.reply.Ok? ==> e.rows[|rooms|].hostelId == CreateTarget(user, body).value
    ensures e.reply.Ok? ==> e.rows[|rooms|] == NewRoom(e.reply.value, CreateTarget(user, body).value, body, types, now)
    ensures e.reply.Ok? ==> e.rows[|rooms|].capacity == Some(TypeCapacity(types, body.roomTypeId.value))
  {
    match CreateTarget(user, body)
    case Fail(status, error) => Effect(Fail(status, error), rooms)
    case Ok(_, hostel) =>
      if !HasRequiredFields(body) then Effect(Fail(400, REQUIRED_FIELDS), rooms)
      else if NumberTaken(rooms, hostel, body.roomNumber.value) then Effect(Fail(409, DUPLICATE_NUMBER), rooms)
      else
        var id := NextRoomId(rooms);
        var rows := rooms + [NewRoom(id, hostel, body, types, now)];
        assert rows[..|rooms|] == rooms;
        Effect(Ok(201, id), rows)
  }

  /** An owner's room goes into the token's hostel whatever `hostel_id` the body names. */
  lemma OwnerCreateIgnoresBodyHostel(rooms: seq<Room>, types: seq<RoomType>, user: Option<TokenPayload>,
                                     body: NewRoomBody, hostel: Field<int>, now: int)
    requires HasRole(user, OWNER_ROLE)
    ensures CreateRoom(rooms, types, user, body, now) == CreateRoom(rooms, types, user, body.(hostelId := hostel), now)
    ensures CreateRoom(rooms, types, user, body, now).reply.Ok? ==>
      Some(CreateRoom(rooms, types, user, body, now).rows[|rooms|].hostelId) == user.value.hostelId
  {
  }

  /** Creating a room keeps room ids unique and room numbers unique within each hostel. */
  lemma CreateRoomKeepsKeysUnique(rooms: seq<Room>, types: seq<RoomType>, user: Option<TokenPayload>, body: NewRoomBody, now: int)
    requires UniqueRoomIds(rooms) && UniqueRoomNumbers(rooms)
    ensures UniqueRoomIds(CreateRoom(rooms, types, user, body, now).rows)
    ensures UniqueRoomNumbers(CreateRoom(rooms, types, user, body, now).rows)
  {
    var e := CreateRoom(rooms, types, user, body, now);
    if e.reply.Ok? {
      var rows := e.rows;
      var n := |rooms|;
      forall i, j | 0 <= i < |rows| && 0 <= j < |rows| && i != j
        ensures rows[i].roomId != rows[j].roomId
      {
        if i < n && j < n {
          assert rows[i] == rooms[i] && rows[j] == rooms[j];
        } else if i < n {
          assert rows[i] == rooms[i];
        } else {
          assert rows[j] == rooms[j];
        }
      }
      forall i, j | 0 <= i < |rows| && 0 <= j < |rows| && i != j && rows[i].hostelId == rows[j].hostelId
        && rows[i].roomNumber.Some?
        ensures rows[i].roomNumber != rows[j].roomNumber
      {
        if i < n && j < n {
          assert rows[i] == rooms[i] && rows[j] == rooms[j];
        } else if i < n {
          assert rows[i] == rooms[i];
        } else {
          assert rows[j] == rooms[j];
        }
      }
    }
  }

  /**
   * A created room reads back: its detail view shows the capacity its room
   * type gives (2 when that is 0), and amenities stored with
   * `JSON.stringify` come back when `JSON.parse` inverts it.
   */
  lemma CreatedRoomReadsBack(rooms: seq<Room>, types: seq<RoomType>, students: seq<Student>, user: Option<TokenPayload>,
                             body: NewRoomBody, now: int, parseJson: JsonParser)
    requires CreateRoom(rooms, types, user, body, now).reply.Ok?
    requires body.amenities.Given? ==> parseJson(JsonStringify(body.amenities)) == Some(body.amenities.value)
    ensures var e := CreateRoom(rooms, types, user, body, now);
      var d := GetRoomById(e.rows, types, students, e.reply.value, parseJson);
      d.Ok? && d.value.view.room == e.rows[|rooms|]
      && (body.amenities.Given? ==> d.value.view.amenities == body.amenities.value)
      && (body.amenities.Null? || body.amenities.Undefined? ==> d.value.view.amenities == [])
      && d.value.view.capacity == (if TypeCapacity(types, body.roomTypeId.value) > 0
                                   then TypeCapacity(types, body.roomTypeId.value) else 2)
  {
    var e := CreateRoom(rooms, types, user, body, now);
    var id := e.reply.value;
    FindRoomAppended(rooms, e.rows[|rooms|]);
    assert e.rows == rooms + [e.rows[|rooms|]];
    CapacityViewsAgree(e.rows[|rooms|], FindRoomType(types, e.rows[|rooms|].roomTypeId));
  }

  lemma {:induction false} FindRoomAppended(rooms: seq<Room>, room: Room)
    requires !HasRoom(rooms, room.roomId)
    ensures FindRoom(rooms + [room], room.roomId) == Some(room)
    decreases |rooms|
  {
    if |rooms| == 0 {
      assert rooms + [room] == [room];
    } else {
      assert (rooms + [room])[1..] == rooms[1..] + [room];
      assert !HasRoom(rooms[1..], room.roomId) by {
        forall i | 0 <= i < |rooms[1..]| ensures rooms[1..][i].roomId != room.roomId {
          assert rooms[1..][i] == rooms[i + 1];
        }
      }
      FindRoomAppended(rooms[1..], room);
    }
  }

  // ------------------------------------------------ updating and deleting

  /** Why an owner may not change `room`, if they may not; nobody else is checked. */
  function OwnershipError(user: Option<TokenPayload>, room: Room, verb: string): (r: Option<string>)
    ensures r.None? <==> !HasRole(user, OWNER_ROLE) || (user.value.hostelId == Some(room.hostelId) && room.hostelId != 0)
  {
    if !HasRole(user, OWNER_ROLE) then None
    else if LinkedHostel(user.value).None? then Some(NOT_LINKED_SHORT)
    else if room.hostelId != user.value.hostelId.value then Some("You can only " + verb + " rooms from your own hostel")
    else None
  }

  /** The properties of an `updateRoom` request body. */
  datatype RoomPatch = RoomPatch(
    roomNumber: Field<string>,
    roomTypeId: Field<int>,
    floorNumber: Field<int>,
    occupiedBeds: Field<int>,
    rentPerBed: Field<int>,
    isAvailable: Field<int>,
    amenities: Field<seq<string>>)

  /** A body that sets nothing. */
  const EMPTY_PATCH := RoomPatch(Undefined, Undefined, Undefined, Undefined, Undefined, Undefined, Undefined)

  /**
   * The row after `updateRoom` writes `patch` into it: truthy room number,
   * room type and rent, and every other property that is not `undefined`;
   * `updated_at` is always set. The capacity is not recomputed.
   */
  function Patched(room: Room, patch: RoomPatch, now: int): (r: Room)
    ensures r.roomId == room.roomId && r.hostelId == room.hostelId
    ensures r.capacity == room.capacity && r.createdAt == room.createdAt
    ensures r.updatedAt == Some(now)
    ensures TruthyStr(patch.roomNumber) ==> r.roomNumber == Some(patch.roomNumber.value)
    ensures !TruthyStr(patch.roomNumber) ==> r.roomNumber == room.roomNumber
    ensures TruthyInt(patch.roomTypeId) ==> r.roomTypeId == Some(patch.roomTypeId.value)
    ensures !TruthyInt(patch.roomTypeId) ==> r.roomTypeId == room.roomTypeId
    ensures TruthyInt(patch.rentPerBed) ==> r.rentPerBed == Some(patch.rentPerBed.value)
    ensures !TruthyInt(patch.rentPerBed) ==> r.rentPerBed == room.rentPerBed
    ensures Defined(patch.floorNumber) ==> r.floorNumber == Cell(patch.floorNumber)
    ensures patch.floorNumber.Undefined? ==> r.floorNumber == room.floorNumber
    ensures Defined(patch.occupiedBeds) ==> r.occupiedBeds == Cell(patch.occupiedBeds)
    ensures patch.occupiedBeds.Undefined? ==> r.occupiedBeds == room.occupiedBeds
    ensures Defined(patch.isAvailable) ==> r.isAvailable == Cell(patch.isAvailable)
    ensures patch.isAvailable.Undefined? ==> r.isAvailable == room.isAvailable
    ensures Defined(patch.amenities) ==> r.amenities == Some(JsonStringify(patch.amenities))
    ensures patch.amenities.Undefined? ==> r.amenities == room.amenities
  {
    room.(
      roomNumber := if TruthyStr(patch.roomNumber) then Some(patch.roomNumber.value) else room.roomNumber,
      roomTypeId := if TruthyInt(patch.roomTypeId) then Some(patch.roomTypeId.value) else room.roomTypeId,
      floorNumber := if Defined(patch.floorNumber) then Cell(patch.floorNumber) else room.floorNumber,
      occupiedBeds := if Defined(patch.occupiedBeds) then Cell(patch.occupiedBeds) else room.occupiedBeds,
      rentPerBed := if TruthyInt(patch.rentPerBed) then Some(patch.rentPerBed.value) else room.rentPerBed,
      isAvailable := if Defined(patch.isAvailable) then Cell(patch.isAvailable) else room.isAvailable,
      amenities := if Defined(patch.amenities) then Some(JsonStringify(patch.amenities)) else room.amenities,
      updatedAt := Some(now))
  }

  /** Writing the same patch twice leaves the row as writing it once. */
  lemma PatchIdempotent(room: Room, patch: RoomPatch, now: int)
    ensures Patched(Patched(room, patch, now), patch, now) == Patched(room, patch, now)
  {
  }

  /** A body that sets nothing only touches `updated_at`. */
  lemma EmptyPatchTouchesOnlyTimestamp(room: Room, now: int)
    ensures Patched(room, EMPTY_PATCH, now) == room.(updatedAt := Some(now))
  {
  }

  /** `db('rooms').where({ room_id }).update(...)`: every row with the id is patched. */
  function PatchRows(rooms: seq<Room>, roomId: int, patch: RoomPatch, now: int): (r: seq<Room>)
    ensures |r| == |rooms|
    ensures forall i :: 0 <= i < |rooms| ==>
      r[i] == if rooms[i].roomId == roomId then Patched(rooms[i], patch, now) else rooms[i]
  {
    seq(|rooms|, i requires 0 <= i < |rooms| =>
      if rooms[i].roomId == roomId then Patched(rooms[i], patch, now) else rooms[i])
  }

  /** `updateRoom` */
  function UpdateRoom(rooms: seq<Room>, user: Option<TokenPayload>, roomId: int, patch: RoomPatch, now: int)
    : (e: Effect<string, Room>)
    ensures e.reply.Fail? ==> e.rows == rooms
    ensures !HasRoom(rooms, roomId) ==> e.reply == Fail(404, ROOM_NOT_FOUND)
    ensures HasRoom(rooms, roomId) && OwnershipError(user, FindRoom(rooms, roomId).value, "update").Some? ==>
      e.reply == Fail(403, OwnershipError(user, FindRoom(rooms, roomId).value, "update").value)
    ensures e.reply.Ok? <==> HasRoom(rooms, roomId) && OwnershipError(user, FindRoom(rooms, roomId).value, "update").None?
    ensures e.reply.Ok? ==> e.reply == Ok(200, UPDATED)
    ensures e.reply.Ok? && HasRole(user, OWNER_ROLE) ==> user.value.hostelId == Some(FindRoom(rooms, roomId).value.hostelId)
    ensures e.reply.Ok? ==> |e.rows| == |rooms|
    ensures e.reply.Ok? ==> forall i :: 0 <= i < |rooms| ==>
      e.rows[i] == if rooms[i].roomId == roomId then Patched(rooms[i], patch, now) else rooms[i]
  {
    match FindRoom(rooms, roomId)
    case None => Effect(Fail(404, ROOM_NOT_FOUND), rooms)
    case Some(room) =>
      match OwnershipError(user, room, "update")
      case Some(error) => Effect(Fail(403, error), rooms)
      case None => Effect(Ok(200, UPDATED), PatchRows(rooms, roomId, patch, now))
  }

  /** Sending the same update twice leaves the table as sending it once. */
  lemma UpdateRoomIdempotent(rooms: seq<Room>, user: Option<TokenPayload>, roomId: int, patch: RoomPatch, now: int)
    ensures var once := UpdateRoom(rooms, user, roomId, patch, now).rows;
      UpdateRoom(once, user, roomId, patch, now).rows == once
  {
    var once := UpdateRoom(rooms, user, roomId, patch, now).rows;
    var twice := UpdateRoom(once, user, roomId, patch, now).rows;
    if UpdateRoom(once, user, roomId, patch, now).reply.Ok? {
      forall i | 0 <= i < |once| ensures twice[i] == once[i] {
        PatchIdempotent(rooms[i], patch, now);
      }
    }
  }

  /** The rows that remain after `where({ room_id }).delete()`. */
  function RemoveRoom(rooms: seq<Room>, roomId: int): (r: seq<Room>)
    ensures forall room :: room in r <==> room in rooms && room.roomId != roomId
    ensures !HasRoom(r, roomId)
  {
    if |rooms| == 0 then []
    else
      var rest := RemoveRoom(rooms[1..], roomId);
      assert forall room :: room in rooms <==> room == rooms[0] || room in rooms[1..];
      if rooms[0].roomId == roomId then rest else [rooms[0]] + rest
  }

  /** `deleteRoom`: a room with active students is refused. */
  function DeleteRoom(rooms: seq<Room>, students: seq<Student>, user: Option<TokenPayload>, roomId: int)
    : (e: Effect<string, Room>)
    ensures e.reply.Fail? ==> e.rows == rooms
    ensures !HasRoom(rooms, roomId) ==> e.reply == Fail(404, ROOM_NOT_FOUND)
    ensures HasRoom(rooms, roomId) && OwnershipError(user, FindRoom(rooms, roomId).value, "delete").Some? ==>
      e.reply == Fail(403, OwnershipError(user, FindRoom(rooms, roomId).value, "delete").value)
    ensures (HasRoom(rooms, roomId) && OwnershipError(user, FindRoom(rooms, roomId).value, "delete").None?
      && |ActiveOccupants(students, roomId)| > 0) ==> e.reply == Fail(400, ROOM_OCCUPIED)
    ensures e.reply.Ok? <==> (HasRoom(rooms, roomId) && OwnershipError(user, FindRoom(rooms, roomId).value, "delete").None?
      && |ActiveOccupants(students, roomId)| == 0)
    ensures e.reply.Ok? ==> e.reply == Ok(200, DELETED) && ActiveOccupants(students, roomId) == []
    ensures e.reply.Ok? ==> forall room :: room in e.rows <==> room in rooms && room.roomId != roomId
  {
    match FindRoom(rooms, roomId)
    case None => Effect(Fail(404, ROOM_NOT_FOUND), rooms)
    case Some(room) =>
      match OwnershipError(user, room, "delete")
      case Some(error) => Effect(Fail(403, error), rooms)
      case None =>
        if |ActiveOccupants(students, roomId)| > 0 then Effect(Fail(400, ROOM_OCCUPIED), rooms)
        else Effect(Ok(200, DELETED), RemoveRoom(rooms, roomId))
  }

  /** A deleted room is gone: reading it afterwards answers 404. */
  lemma DeletedRoomNotFound(rooms: seq<Room>, types: seq<RoomType>, students: seq<Student>, user: Option<TokenPayload>,
                            roomId: int, parseJson: JsonParser)
    requires DeleteRoom(rooms, students, user, roomId).reply.Ok?
    ensures GetRoomById(DeleteRoom(rooms, students, user, roomId).rows, types, students, roomId, parseJson)
         == Fail(404, ROOM_NOT_FOUND)
  {
  }
}

=== FILE: sql.dfy ===
/**
 * The comparison SQLite applies to text cells such as the `YYYY-MM-DD`
 * dates of `income_date` and `payment_date`: the BINARY collation, which
 * orders strings by their UTF-8 bytes, the same order as comparing code
 * points left to right. `whereBetween` is inclusive at both ends, and a
 * NULL cell is never between anything.
 */
module Sql {
  import opened Wrappers

  /** `a <= b` under the BINARY collation. */
  predicate TextLe(a: string, b: string)
    decreases |a|
  {
    |a| == 0 || (|b| > 0 && (a[0] < b[0] || (a[0] == b[0] && TextLe(a[1..], b[1..]))))
  }

  /** `x BETWEEN lo AND hi` */
  predicate Between(x: Option<string>, lo: string, hi: string) {
    x.Some? && TextLe(lo, x.value) && TextLe(x.value, hi)
  }

  lemma {:induction false} TextLeReflexive(a: string)
    ensures TextLe(a, a)
    decreases |a|
  {
    if |a| > 0 {
      TextLeReflexive(a[1..]);
    }
  }

  lemma {:induction false} TextLeTotal(a: string, b: string)
    ensures TextLe(a, b) || TextLe(b, a)
    decreases |a|
  {
    if |a| > 0 && |b| > 0 && a[0] == b[0] {
      TextLeTotal(a[1..], b[1..]);
    }
  }

  lemma {:induction false} TextLeAntisymmetric(a: string, b: string)
    requires TextLe(a, b) && TextLe(b, a)
    ensures a == b
    decreases |a|
  {
    if |a| > 0 {
      TextLeAntisymmetric(a[1..], b[1..]);
      assert a == [a[0]] + a[1..] && b == [b[0]] + b[1..];
    }
  }

  lemma {:induction false} TextLeTransitive(a: string, b: string, c: string)
    requires TextLe(a, b) && TextLe(b, c)
    ensures TextLe(a, c)
    decreases |a|
  {
    if |a| > 0 && a[0] == b[0] && b[0] == c[0] {
      TextLeTransitive(a[1..], b[1..], c[1..]);
    }
  }

  /** A range whose start sorts after its end holds nothing. */
  lemma EmptyRange(x: Option<string>, lo: string, hi: string)
    requires !TextLe(lo, hi)
    ensures !Between(x, lo, hi)
  {
    if Between(x, lo, hi) {
      TextLeTransitive(lo, x.value, hi);
    }
  }

  /** A one-day range holds exactly that day. */
  lemma SingleDayRange(x: Option<string>, day: string)
    ensures Between(x, day, day) <==> x == Some(day)
  {
    if Between(x, day, day) {
      TextLeAntisymmetric(x.value, day);
    }
    if x == Some(day) {
      TextLeReflexive(day);
    }
  }

  /**
   * The key SQLite gives an inserted row of a table keyed by an integer
   * primary key: one more than the largest key in use, or 1 for an empty table.
   */
  function NextKey<R>(rows: seq<R>, key: R -> int): (id: int)
    ensures id >= 1
    ensures forall i :: 0 <= i < |rows| ==> key(rows[i]) < id
  {
    if |rows| == 0 then 1
    else
      var rest := NextKey(rows[1..], key);
      assert forall i :: 1 <= i < |rows| ==> rows[i] == rows[1..][i - 1];
      if key(rows[0]) + 1 > rest then key(rows[0]) + 1 else rest
  }
}

=== FILE: wrappers.dfy ===
/** Optional values, used for SQL NULL cells, failed lookups and JavaScript NaN. */
module Wrappers {

  datatype Option<+T> = None | Some(value: T) {

    /** The wrapped value, or `default` when there is none. */
    function GetOr(default: T): T {
      match this
      case Some(v) => v
      case None => default
    }
  }
}
